=== FILE: README.md ===
# playYT services — a Dafny model

playYT is a small personal media server. Users search for online videos, look
at one video's details, download videos into a local `downloads` directory and
browse or delete what they have downloaded. This project models the service
layer behind those pages as pure Dafny functions over immutable data, and it
proves what that layer promises.

- **Youtube** (`youtube.dfy`, from `services/youtube.py`) covers the online
  search service. It renders durations as `m:ss` / `h:mm:ss`, chooses a
  thumbnail, and shapes the video extractor's entries into search rows and
  video details. The extractor library is a `Backend` value. It is either
  `Unavailable`, or it carries two functions: its answer to a
  `ytsearch<limit>:<query>` request and its answer to a watch URL, each
  `None` when the extraction raises. The two services return an `Outcome`:
  a value, or `Raised` when an exception leaves them.
- **Search** (`search.dfy`, from `services/search.py`) covers the offline demo
  catalogue. It holds the four sample videos, the case-insensitive substring
  search and lookup by id.
- **Downloads** (`downloads.dfy`, from `services/downloads.py`) covers the
  library. It models size labels, titles taken from file names, the directory
  scan (filter by extension, newest first), deletion with its confinement
  check, and the summary statistics. The directory listing is a sequence of
  `FileRecord(name, kind, size, mtime, accessible, mtimeInRange)`, where
  `kind` is what `is_file()` finds: a regular file, something else, or a stat
  error that it raises; `mtimeInRange` says whether `datetime.fromtimestamp`
  accepts the modification time. For deletion, the file system is a map from resolved paths to
  nodes, and path resolution is a function parameter.
- **Text** (`text.dfy`) holds the string behaviour of Python that the services
  rely on: ASCII `lower`, `needle in hay`, `f"{n:d}"` and `f"{n:02d}"`. It
  also has ASCII `upper`, which no service calls; it is there to state that
  the demo search ignores the query's case. It also has a decimal reader and a split on one separator
  character. No service calls these two; they read rendered durations back so
  that the round trip can be stated.
- **Wrappers** (`wrappers.dfy`) defines `Option`, which stands for Python's
  `None`, and `Outcome`, the result of a call that may raise.

## Model

| member | source | states |
|---|---|---|
| Youtube.TimedeltaAccepts | src/playyt/services/youtube.py:12-14 | `timedelta(seconds=n)` accepts exactly the n from -999999999 days up to, but excluding, 1000000000 days; a missing duration never reaches it |
| Youtube.FmtDuration | src/playyt/services/youtube.py:11-20 | A missing duration renders as "" and only a missing one does; zero is not treated as missing and renders "0:00" |
| Youtube.HoursOfSeconds | src/playyt/services/youtube.py:16-17 | The two successive divmods by 60 give hours n div 3600 and minutes*60+seconds equal to n mod 3600 |
| Youtube.FmtDurationShape | src/playyt/services/youtube.py:16-20 | Exactly two fields (unpadded minutes, two-digit seconds) when 0 <= n < 3600; otherwise three fields: hours n div 3600, then two-digit minutes and two-digit seconds |
| Youtube.FieldsWithHours | src/playyt/services/youtube.py:16-19 | With a non-zero hour part the text splits into the signed hours, two-digit minutes and two-digit seconds |
| Youtube.FieldsWithoutHours | src/playyt/services/youtube.py:16-20 | With a zero hour part the text splits into the unpadded minutes and two-digit seconds |
| Youtube.FmtDurationRoundTrip | src/playyt/services/youtube.py:14-20 | Reading the rendered text back gives n, with both minute and second fields below 60 (h*3600 + m*60 + s == n); this holds for every integer, so in particular for every n that `timedelta` accepts |
| Youtube.FmtDurationExamples | src/playyt/services/youtube.py:16-20 | 3725 renders "1:02:05", 601 renders "10:01", and -5 renders "-1:59:55" because of floor division |
| Youtube.FmtDurationOverAnHour | src/playyt/services/youtube.py:16-19 | 3725 seconds renders "1:02:05": an hour field, then zero-padded minutes and seconds |
| Youtube.FmtDurationUnderAnHour | src/playyt/services/youtube.py:16-20 | 601 seconds renders "10:01": no hour field, unpadded minutes |
| Youtube.FmtDurationNegative | src/playyt/services/youtube.py:16-19 | -5 seconds renders "-1:59:55": floor divmod gives hour -1 and a non-negative remainder |
| Youtube.Key | src/playyt/services/youtube.py:33 | The sort key is (width, height), with 0 for a missing dimension |
| Youtube.KeyLeTotalOrder | src/playyt/services/youtube.py:32-34 | Tuple comparison on keys is reflexive, total, antisymmetric and transitive, so the sort by key is well defined |
| Youtube.LastLargestIndex | src/playyt/services/youtube.py:31-35 | The chosen thumbnail has a lexicographically maximal (width or 0, height or 0) key, and every later one has a strictly smaller key; this is the last element of a stable ascending sort |
| Youtube.LastLargestUnique | src/playyt/services/youtube.py:31-35 | Only one index meets that description, so the sort's last element is determined |
| Youtube.ChooseThumbnail | src/playyt/services/youtube.py:23-38 | A truthy thumbnail is returned unchanged and the list is ignored; otherwise the url of the last largest listed thumbnail; None when the list is missing, empty or not a list |
| Youtube.ChannelOf | src/playyt/services/youtube.py:63 | The channel is the uploader when truthy, else the channel when truthy, else "" (and "" exactly when neither is truthy) |
| Youtube.ToSearchResult | src/playyt/services/youtube.py:59-67 | A search row keeps the entry's id and title and carries its channel, rendered duration and chosen thumbnail |
| Youtube.ToVideoDetail | src/playyt/services/youtube.py:85-93 | The detail keeps id and title, carries channel, duration and thumbnail as a search row does, takes the description when truthy else "", and takes the page URL when truthy else the watch URL, so the page URL is never empty |
| Youtube.RowAgreesWithDetail | src/playyt/services/youtube.py:59-67 | A search row and the detail page of the same entry agree on id, title, channel, duration and thumbnail |
| Youtube.SearchRequest | src/playyt/services/youtube.py:56 | The request starts with "ytsearch", ends with ':' and the query, and has the limit's signed decimal text in between |
| Youtube.SearchRequestLimit | src/playyt/services/youtube.py:56 | The text between "ytsearch" and the final ':' before the query reads back to the limit |
| Youtube.DefaultSearchRequest | src/playyt/services/youtube.py:41-56 | With the default limit the request is "ytsearch12:" followed by the query |
| Youtube.WatchUrl | src/playyt/services/youtube.py:74 | The watch URL is the fixed YouTube watch prefix followed by the video id |
| Youtube.EntriesOf | src/playyt/services/youtube.py:57 | The entries are those of a dict answer, and none for any other answer |
| Youtube.YoutubeSearch | src/playyt/services/youtube.py:41-68 | An empty query or a missing library gives [] without asking the extractor; otherwise the call raises exactly when the extraction raises or some entry's duration is outside timedelta's range, and else gives one shaped row per extracted entry, in order |
| Youtube.EmptyQueryIgnoresBackend | src/playyt/services/youtube.py:42-43 | The empty-query answer does not depend on the backend |
| Youtube.GetVideo | src/playyt/services/youtube.py:71-93 | None for an empty id, a missing library or a failed (caught) extraction; an extracted entry whose duration is outside timedelta's range raises; otherwise that entry shaped, with a non-empty page URL |
| Text.Lower | src/playyt/services/search.py:15-16 | Lower-casing keeps the length and maps every character by the ASCII lower-case rule |
| Text.LowerOfUpper | src/playyt/services/search.py:15 | Lower-casing after upper-casing equals lower-casing (ASCII) |
| Text.ContainsIffOccurs | src/playyt/services/search.py:16 | Python's `in` on strings holds exactly when the needle occurs at some position of the haystack |
| Text.NatToString | src/playyt/services/youtube.py:19-20 | The unpadded decimal has only digits and no leading zero unless it is "0" |
| Text.IntToString | src/playyt/services/youtube.py:19 | The signed decimal starts with '-' exactly for a negative number, and every later character is a digit |
| Text.Pad2 | src/playyt/services/youtube.py:19-20 | The zero-padded field is exactly two digits |
| Text.ParseNatToString | src/playyt/services/youtube.py:19-20 | The unpadded decimal reads back to its number |
| Text.ParseIntToString | src/playyt/services/youtube.py:19 | The signed decimal reads back to its number |
| Search.Matches | src/playyt/services/search.py:16 | A video matches exactly when the query occurs at some position of its lower-cased title or of its lower-cased channel |
| Search.Select | src/playyt/services/search.py:16 | The comprehension keeps exactly the matching videos (sound and complete) as an order-preserving subsequence |
| Search.SearchVideos | src/playyt/services/search.py:12-16 | The empty query gives []; otherwise a video is returned iff it is a sample whose lower-cased title or channel contains the lower-cased query; the result is a subsequence of the samples |
| Search.SearchVideosBounded | src/playyt/services/search.py:4-9 | No search returns more than the four sample videos |
| Search.SearchCaseInsensitive | src/playyt/services/search.py:15-16 | Upper-casing the query leaves the answer unchanged |
| Search.SearchLowerQuery | src/playyt/services/search.py:15-16 | Lower-casing the query first leaves the answer unchanged |
| Search.SearchHitsContainQuery | src/playyt/services/search.py:13-16 | Every hit comes from a non-empty query that occurs at some position of its lower-cased title or channel |
| Search.SearchFindsFastApiVideos | src/playyt/services/search.py:5-8 | "FastAPI" finds the two FastAPI videos |
| Search.FirstWithId | src/playyt/services/search.py:20-22 | The loop stops at the first video with the id; no earlier video has it |
| Search.GetVideo | src/playyt/services/search.py:19-23 | Returns the first sample with the id, and None exactly when no sample has it |
| Search.GetVideoExamples | src/playyt/services/search.py:4-9 | "c3" finds the third sample; an unknown id finds nothing |
| Search.GetVideoFindsC3 | src/playyt/services/search.py:19-23 | "c3" finds the third sample video |
| Search.GetVideoMissesUnknown | src/playyt/services/search.py:19-23 | An id that no sample has gives None |
| Downloads.UnitClimb | src/playyt/services/downloads.py:21-23 | The loop ends on a unit index between its start and the last unit |
| Downloads.UnitIndex | src/playyt/services/downloads.py:19-23 | The unit index is a valid index into B..TB, and sizes below 1024 stay in bytes |
| Downloads.UnitClimbChoosesLargestPower | src/playyt/services/downloads.py:21-23 | From any step of the loop, the unit reached is the largest power of 1024 not above the size, capped at TB |
| Downloads.UnitIndexIsLargestPower | src/playyt/services/downloads.py:19-23 | For a positive size the unit index is the largest k <= 4 with size >= 1024^k; sizes below 1024 stay in bytes |
| Downloads.ScaledValue | src/playyt/services/downloads.py:21-25 | The printed value times 1024^k is the size; for a positive size it lies in [1, 1024) unless the unit is TB; a negative size is printed unscaled in B |
| Downloads.FormatFileSize | src/playyt/services/downloads.py:14-25 | Zero and only zero is "0 B"; any other size shows the unit of UnitIndex and a value that times 1024^k gives the size back; a positive size shows a value in [1, 1024) unless in TB; negatives stay in B unscaled |
| Downloads.RFind | src/playyt/services/downloads.py:31 | The index found holds the last occurrence of the character, or -1 when there is none |
| Downloads.BaseName | src/playyt/services/downloads.py:31 | The base name is no longer than the path |
| Downloads.BaseNameIsLastComponent | src/playyt/services/downloads.py:31 | The base name is the ending of the path after its last separator and holds no separator |
| Downloads.Suffix | src/playyt/services/downloads.py:53 | The suffix is empty, or a dot and at least one more character, shorter than the name |
| Downloads.Stem | src/playyt/services/downloads.py:31 | The stem is a prefix of the name, and non-empty for a non-empty name |
| Downloads.StemSuffixSplit | src/playyt/services/downloads.py:31 | Stem followed by suffix is the name; a non-empty suffix is a dot and at least one more character with no further dot, after a non-empty stem |
| Downloads.StemSuffixOfJoin | src/playyt/services/downloads.py:31 | Conversely, "stem.ext" with a dot-free extension has stem "stem" and suffix ".ext" |
| Downloads.VideoInfoFromFilename | src/playyt/services/downloads.py:28-38 | The title is the base name without its final extension, and the original file name is kept unchanged |
| Downloads.IsListedVideo | src/playyt/services/downloads.py:53 | A listed video has a non-empty suffix (so a dot and an extension) after a non-empty stem |
| Downloads.ToDownload | src/playyt/services/downloads.py:56-68 | A library entry keeps the file's name as filename and original name, has path "downloads/<name>", keeps size and modification time, labels the size, carries the lower-cased suffix as extension and the stem of the base name as title |
| Downloads.Collect | src/playyt/services/downloads.py:52-75 | The collected entries are exactly the accessible regular files with a video extension, never more than the listing |
| Downloads.CollectConcat | src/playyt/services/downloads.py:52-70 | Collecting a listing split in two gives the first part's entries followed by the second part's, so the loop keeps listing order |
| Downloads.CollectSingle | src/playyt/services/downloads.py:53-70 | One entry contributes its record exactly when it is a listed video, and nothing otherwise; with the previous row this fixes the collected list completely |
| Downloads.InsertByMtime | src/playyt/services/downloads.py:81 | Insertion adds exactly one element (multiset) and keeps a newest-first list newest first |
| Downloads.SortNewestFirst | src/playyt/services/downloads.py:81 | The sorted list is a permutation of its input, ordered by modification time, newest first |
| Downloads.NewestFirstOrdersAllPairs | src/playyt/services/downloads.py:81 | In a newest-first list every entry is at least as new as every later one |
| Downloads.ScanAborts | src/playyt/services/downloads.py:53 | An `is_file()` error is raised exactly when some entry of the listing has one |
| Downloads.Scanned | src/playyt/services/downloads.py:51-78 | The loop gets through exactly when the directory was listed and no entry's `is_file()` raises |
| Downloads.ScanDownloads | src/playyt/services/downloads.py:41-83 | When the scan returns: a missing or unreadable directory, or an entry whose `is_file()` raises, gives []; otherwise a newest-first permutation of the collected entries, holding every accessible video file and nothing else |
| Downloads.FirstFaultCases | src/playyt/services/downloads.py:52-78 | The loop stops at an `is_file()` error only if the listing has one; it gets through only if no entry has either fault; a timestamp error stops it exactly when a rejected timestamp comes before every `is_file()` error |
| Downloads.ScanOutcome | src/playyt/services/downloads.py:41-83 | The scan raises exactly when a listed video whose timestamp `datetime.fromtimestamp` rejects comes before every `is_file()` error, since neither handler catches ValueError or OverflowError; otherwise it returns the list above, and a scan that got through returns no such video |
| Downloads.ScanKeepsListingOrder | src/playyt/services/downloads.py:52-81 | In the scan, the videos sharing a modification time appear in the order they were collected, which is listing order |
| Downloads.InsertStable | src/playyt/services/downloads.py:81 | Insertion puts the new entry after every entry with the same modification time |
| Downloads.SortStable | src/playyt/services/downloads.py:81 | The sort is stable: entries with equal modification times keep their listing order |
| Downloads.CollectOnce | src/playyt/services/downloads.py:52-75 | With distinct names, every listed video is collected exactly once |
| Downloads.ScanListsOnce | src/playyt/services/downloads.py:41-83 | With distinct names, every accessible video file appears exactly once in the scan, unless an `is_file()` error aborts it and it lists nothing |
| Downloads.TotalSize | src/playyt/services/downloads.py:116 | The sum of sizes is at least each entry's size, and zero exactly when every size is zero |
| Downloads.TotalSizeSort | src/playyt/services/downloads.py:81 | Sorting does not change the sum of sizes |
| Downloads.ScanMatchesListed | src/playyt/services/downloads.py:113-116 | The scan holds the same entries as the listed videos, as many of them and with the same total size |
| Downloads.HeadIsNewest | src/playyt/services/downloads.py:122 | The first entry of a newest-first permutation is one of its entries and at least as new as all of them |
| Downloads.DownloadsStats | src/playyt/services/downloads.py:111-123 | When the call returns: the count and total size are those of the listed videos, the label is format_file_size of the total, and the latest time is the newest modification time among them, None exactly when there are none |
| Downloads.StatsOutcome | src/playyt/services/downloads.py:111-123 | The statistics raise exactly when the scan raises (line 113 is inside no `try`), and otherwise return the statistics above |
| Downloads.ErrorText | src/playyt/services/downloads.py:97-106 | An invalid path reads "Invalid file path", a missing file "File not found", and a permission error starts with "Permission denied: " |
| Downloads.ErrorTextsDistinct | src/playyt/services/downloads.py:97-106 | The three failures have different texts, and only a permission error's text starts with "Permission denied: " |
| Downloads.JoinPath | src/playyt/services/downloads.py:89 | Joining a relative name gives the directory, a separator and the name; an absolute name replaces the directory; an empty name adds nothing |
| Downloads.RemoveRegularFile | src/playyt/services/downloads.py:99-106 | Only an existing, removable regular file is deleted; then exactly that path leaves the file system and every other entry is unchanged; the answer is "File not found" exactly for a missing path or a non-file, and a permission error exactly when the `stat` behind `exists()` raises or the unlink of a regular file fails, with nothing changed; it never answers "Invalid file path" |
| Downloads.DeleteDownload | src/playyt/services/downloads.py:86-106 | A resolved target whose text does not start with the resolved directory's text is refused as invalid with nothing removed; past that test the answer is "File not found" exactly for a missing target or non-file, and a permission error exactly when the target's `stat` raises or its unlink fails; deletion happens exactly for an existing removable regular file, with message "Deleted <name>", removes only it and leaves every other node unchanged |
| Downloads.UnderIsPrefix | src/playyt/services/downloads.py:96 | A path at or below a directory also passes the plain prefix test |
| Downloads.SiblingPassesPrefix | src/playyt/services/downloads.py:96 | /srv/downloads-old/a.mp4 starts with the text /srv/downloads but does not lie below that directory |
| Downloads.PrefixCheckAdmitsSibling | src/playyt/services/downloads.py:96 | With the directory at /srv/downloads, "../downloads-old/a.mp4" deletes /srv/downloads-old/a.mp4, which is outside the directory |
| Downloads.DeleteDownloadConfined | src/playyt/services/downloads.py:93-103 | The corrected deletion removes only paths at or below the directory; it refuses everything else, and inside the directory it agrees with DeleteDownload |
| Downloads.ConfinedRejectsSibling | src/playyt/services/downloads.py:96 | The corrected deletion refuses the sibling request and leaves the file system unchanged |

## Left out

- HTTP routing, templates and static files (`webapp/main.py`) are not modelled. This includes the choice between the online search and the demo search, which is one branch on whether the import succeeded.
- The video extractor library's network calls are not modelled. Its answers are the `Backend` functions, with `None` for an extraction that raises. In `get_video` that exception is caught and gives `None`. In `youtube_search` the call is inside no `try`, so the exception propagates and the model's answer is `Raised`. An `entries` value that is present but not a list is not modelled.
- Youtube.FmtDuration: renders every integer. `timedelta(seconds=n)` raises OverflowError outside -86399999913600..86399999999999 seconds, so `_fmt_duration` raises there. The model states that error at its callers instead: `YoutubeSearch` and `GetVideo` answer `Raised` for such a duration. The round trip is proved for all integers, a superset of the accepted range.
- Real file-system calls (`exists`, `iterdir`, `is_file`, `stat`, `resolve`, `unlink`) are replaced by data. Directory scanning uses `DirListing` and `FileRecord`. Deletion uses a map from resolved paths to `FsNode`, and resolution is an uninterpreted function parameter.
- Exceptions in the scan and in deletion become data:
  - A stat error inside `is_file()` other than a missing entry (a permission or I/O error) is `StatFails`. `Path.is_file` re-raises it up to Python 3.12, so the outer handler makes the whole scan return []. Later versions of `Path.is_file` may treat such an entry as not a file; the model follows 3.12.
  - A `stat` that fails after `is_file()` succeeded, such as a file removed in between, is `accessible == false`, and only that file is skipped.
  - A failing listing is `Unreadable`, and a failing `unlink` is `removable == false`.
  - In deletion, a `stat` error that `exists()` re-raises (up to Python 3.12: anything but a missing entry, a non-directory in the path, a bad descriptor or a symlink loop) is a `StatFails` node, and the handler answers with a permission error.
- Errors are not modelled when raised by `downloads_dir.exists()` (outside every `try`) or by `resolve`. Neither is the generic "Error deleting file" branch, nor the system message a permission error appends.
- Downloads.ScanDownloads: an OSError from `datetime.fromtimestamp` (a time the platform's `localtime` cannot convert) falls to the inner handler and skips the file; the model folds it into `accessible == false`. The ValueError or OverflowError it raises for a year outside 1..9999 or a time past `time_t` is `mtimeInRange == false`, and `ScanOutcome` / `StatsOutcome` raise for it. The modification time is an integer. It stands for the local wall-clock time that `datetime.fromtimestamp` gives, encoded so that order is preserved. Sub-second differences between float timestamps are not modelled, and neither is the repeated hour after a daylight-saving fall-back, where local time can order two files differently from their timestamps.
- `_choose_thumbnail`'s fallback to the last list element when sorting raises is not modelled. Widths and heights are integers here, so the sort cannot raise.
- Python truthiness is modelled for optional strings only. A non-string `thumbnail`, or a float duration truncated by `int()`, is outside the model.
- `str.lower()` / `str.upper()` are ASCII case mappings. Other Unicode case rules are not modelled.
- Downloads.FormatFileSize: returns the exact quotient and the unit rather than the one-decimal text. Floating-point rounding and `:.1f` are not modelled. For sizes below 2^53 the float divisions by 1024 are exact, so the unit matches the float loop. Above that, the unit is TB either way. From about 2^1024 on, `size_bytes /= 1024.0` raises OverflowError, which the model does not have.
- Downloads.DownloadsStats: the latest download is the newest modification time as an integer, not its `strftime` text. The `modified_formatted` field of scan entries is also left out.
- Downloads.BaseName: takes the text after the last '/'. It does not normalise trailing separators or "." segments the way `PurePath` does. Suffixes follow the `PurePath` rule of Python up to 3.13, in which a trailing dot is not a suffix.
- Downloads.JoinPath: is the `/` operator on a relative directory. The canonicalisation done by `resolve` stays uninterpreted.

## Findings

| source | as written | input that shows it | evidently intended | confidence | as-written member | corrected member |
|---|---|---|---|---|---|---|
| src/playyt/services/downloads.py:96 | The confinement check is a plain string-prefix test of the resolved target against the resolved downloads directory | filename "../downloads-old/a.mp4" with the directory resolved to /srv/downloads: the target /srv/downloads-old/a.mp4 passes and is deleted | only the directory itself or paths below it (directory text followed by a separator) may pass | high (not executed) | Downloads.PrefixCheckAdmitsSibling | Downloads.DeleteDownloadConfined |

=== FILE: downloads.dfy ===
/**
  The local downloads library: size labels, titles from file names, the
  scan of the downloads directory, deletion of one download and the summary
  statistics. The directory is given as data: a listing of file records for
  the scan, and a map from resolved paths to file-system nodes for deletion,
  with path resolution as a function parameter.
 */
module Downloads {
  import opened Wrappers
  import opened Text

  /** The downloads directory, relative to the working directory. */
  const DownloadsDir: string := "downloads"

  // ------------------------------------------------------------ file sizes

  const SizeUnits: seq<string> := ["B", "KB", "MB", "GB", "TB"]

  function Pow1024(k: nat): (p: nat)
    ensures p >= 1
  {
    if k == 0 then 1 else 1024 * Pow1024(k - 1)
  }

  /**
    The loop of `format_file_size`: while the running value is at least 1024
    and a larger unit remains, divide by 1024 and move to the next unit. `x`
    is the integer part of the running value, which decides every test.
   */
  function UnitClimb(x: int, i: nat): (k: nat)
    requires i < |SizeUnits|
    ensures i <= k < |SizeUnits|
    decreases |SizeUnits| - i
  {
    if x >= 1024 && i < |SizeUnits| - 1 then UnitClimb(x / 1024, i + 1) else i
  }

  /** The index into `SizeUnits` that `format_file_size` prints. */
  function UnitIndex(size: int): (k: nat)
    ensures k < |SizeUnits|
    ensures size < 1024 ==> k == 0
  {
    UnitClimb(size, 0)
  }

  lemma MulMonotone(p: int, a: int, b: int)
    requires p >= 0 && a <= b
    ensures p * a <= p * b
  {
  }

  lemma MulAssoc(p: int, y: int)
    ensures (1024 * p) * y == p * (1024 * y)
  {
  }

  lemma {:induction false} UnitClimbChoosesLargestPower(size: int, x: int, i: nat)
    requires i < |SizeUnits| && x >= 1
    requires Pow1024(i) * x <= size < Pow1024(i) * (x + 1)
    ensures var k := UnitClimb(x, i);
      Pow1024(k) <= size && (k == |SizeUnits| - 1 || size < Pow1024(k + 1))
    decreases |SizeUnits| - i
  {
    var p := Pow1024(i);
    if x >= 1024 && i < |SizeUnits| - 1 {
      var y := x / 1024;
      assert 1024 * y <= x && x + 1 <= 1024 * y + 1024;
      MulMonotone(p, 1024 * y, x);
      MulMonotone(p, x + 1, 1024 * y + 1024);
      MulAssoc(p, y);
      MulAssoc(p, y + 1);
      assert Pow1024(i + 1) == 1024 * p;
      UnitClimbChoosesLargestPower(size, y, i + 1);
    } else {
      MulMonotone(p, 1, x);
      if i < |SizeUnits| - 1 {
        MulMonotone(p, x + 1, 1024);
        assert Pow1024(i + 1) == 1024 * p;
      }
    }
  }

  /**
    For a positive size the unit chosen is the largest k <= 4 with
    size >= 1024^k; sizes below 1024 (zero and negatives included) stay in
    bytes.
   */
  lemma UnitIndexIsLargestPower(size: int)
    ensures size < 1024 ==> UnitIndex(size) == 0
    ensures size >= 1 ==> var k := UnitIndex(size);
      Pow1024(k) <= size && (k == |SizeUnits| - 1 || size < Pow1024(k + 1))
  {
    if size >= 1 {
      UnitClimbChoosesLargestPower(size, size, 0);
    }
  }

  lemma RatioBounds(s: real, p: real, c: real)
    requires 0.0 < p
    ensures p <= s ==> 1.0 <= s / p
    ensures s < c * p ==> s / p < c
  {
    var v := s / p;
    assert v * p == s;
  }

  /**
    The value printed for a non-zero size: the size over 1024 to the power of
    the unit index. It scales back to the size, lies in [1, 1024) for a
    positive size unless the unit is TB, and is the size itself below 1024.
   */
  lemma ScaledValue(size: int)
    requires size != 0
    ensures var k := UnitIndex(size);
      var v := size as real / Pow1024(k) as real;
      && v * (Pow1024(k) as real) == size as real
      && (size > 0 ==> 1.0 <= v && (v < 1024.0 || k == |SizeUnits| - 1))
      && (size < 0 ==> k == 0 && v == size as real)
  {
    var k := UnitIndex(size);
    var p := Pow1024(k) as real;
    RatioBounds(size as real, p, 1024.0);
    if size > 0 {
      UnitIndexIsLargestPower(size);
      if k < |SizeUnits| - 1 {
        assert Pow1024(k + 1) == 1024 * Pow1024(k);
        assert (size as real) < 1024.0 * p;
      }
    }
  }

  /** A size label: "0 B", or a scaled value with its unit (`:.1f` rendering aside). */
  datatype FormattedSize = ZeroBytes | Scaled(value: real, unit: string)

  /**
    `format_file_size`: zero is "0 B"; any other size is divided by 1024 per
    unit step, so a positive size shows a value in [1, 1024) in one of
    B..TB, and only "TB" may show 1024 or more.
   */
  function FormatFileSize(size: int): (r: FormattedSize)
    ensures r.ZeroBytes? <==> size == 0
    ensures r.Scaled? ==> r.unit in SizeUnits
    ensures size < 0 ==> r == Scaled(size as real, "B")
    ensures size > 0 ==> r.Scaled? && 1.0 <= r.value && (r.value < 1024.0 || r.unit == "TB")
    ensures size != 0 ==>
      && r.Scaled? && r.unit == SizeUnits[UnitIndex(size)]
      && r.value * (Pow1024(UnitIndex(size)) as real) == size as real
  {
    if size == 0 then ZeroBytes
    else
      var k := UnitIndex(size);
      ScaledValue(size);
      Scaled(size as real / Pow1024(k) as real, SizeUnits[k])
  }

  // ------------------------------------------------------------ file names

  /** Python's `rfind`: the last index holding `c`, or -1. */
  function RFind(s: string, c: char): (i: int)
    ensures -1 <= i < |s|
    ensures i >= 0 ==> s[i] == c
    ensures forall j :: i < j < |s| ==> s[j] != c
    decreases |s|
  {
    if s == [] then -1
    else if s[|s| - 1] == c then |s| - 1
    else RFind(s[..|s| - 1], c)
  }

  /** `PurePath.name`: the text after the last '/'. */
  function BaseName(path: string): (r: string)
    ensures |r| <= |path|
  {
    path[RFind(path, '/') + 1..]
  }

  /** The base name is the path's final component: a separator-free ending of it. */
  lemma BaseNameIsLastComponent(path: string)
    ensures var b := BaseName(path);
      && b == path[|path| - |b|..]
      && '/' !in b
      && (|b| < |path| ==> path[|path| - |b| - 1] == '/')
  {
    var i := RFind(path, '/');
    var b := path[i + 1..];
    forall j | 0 <= j < |b|
      ensures b[j] != '/'
    {
      assert b[j] == path[i + 1 + j];
    }
  }

  /** `PurePath.suffix`: from the last '.' on, unless that dot leads or ends the name. */
  function Suffix(name: string): (r: string)
    ensures r == "" || (2 <= |r| < |name| && r[0] == '.')
  {
    var i := RFind(name, '.');
    if 0 < i < |name| - 1 then name[i..] else ""
  }

  /** `PurePath.stem`: the name without its suffix. */
  function Stem(name: string): (r: string)
    ensures r <= name
    ensures name != "" ==> r != ""
  {
    var i := RFind(name, '.');
    if 0 < i < |name| - 1 then name[..i] else name
  }

  /**
    Stem and suffix split the name: the suffix is empty or a dot followed by
    at least one character and no further dot, after a non-empty stem.
   */
  lemma StemSuffixSplit(name: string)
    ensures Stem(name) + Suffix(name) == name
    ensures Suffix(name) == "" || (|Suffix(name)| >= 2 && Suffix(name)[0] == '.' && '.' !in Suffix(name)[1..] && Stem(name) != "")
  {
    var i := RFind(name, '.');
    if 0 < i < |name| - 1 {
      assert name[..i] + name[i..] == name;
      var tail := name[i + 1..];
      forall j | 0 <= j < |tail|
        ensures tail[j] != '.'
      {
        assert tail[j] == name[i + 1 + j];
      }
      assert name[i..][1..] == name[i + 1..];
    }
  }

  /** Conversely, a non-empty stem, a dot and a dot-free non-empty extension split back. */
  lemma StemSuffixOfJoin(stem: string, ext: string)
    requires stem != "" && ext != "" && '.' !in ext
    ensures Stem(stem + "." + ext) == stem
    ensures Suffix(stem + "." + ext) == "." + ext
  {
    var name := stem + "." + ext;
    var i := RFind(name, '.');
    assert name[|stem|] == '.';
    forall j | |stem| < j < |name|
      ensures name[j] != '.'
    {
      assert name[j] == ext[j - |stem| - 1];
    }
    assert i == |stem|;
    assert name[..i] == stem;
    assert name[i..] == "." + ext;
  }

  datatype VideoInfo = VideoInfo(title: string, originalFilename: string)

  /**
    `get_video_info_from_filename`: the title is the file name with its
    final extension removed, and the original name is kept unchanged.
   */
  function VideoInfoFromFilename(filename: string): (r: VideoInfo)
    ensures r.originalFilename == filename
    ensures r.title + Suffix(BaseName(filename)) == BaseName(filename)
  {
    StemSuffixSplit(BaseName(filename));
    VideoInfo(Stem(BaseName(filename)), filename)
  }

  // ------------------------------------------------------------------ scan

  const VideoExtensions: set<string> := {".mp4", ".mkv", ".avi", ".mov", ".wmv", ".flv", ".webm", ".m4v"}

  /**
    What `is_file()` finds for a directory entry: a regular file, something
    else (including a missing entry), or a `stat` error other than a missing
    entry (a permission or I/O error), which it raises.
   */
  datatype FileKind = RegularFile | NotRegular | StatFails

  /**
    One directory entry: its name, what `is_file()` finds, the size and
    modification time the following `stat` reports, whether that `stat`
    succeeds, and whether `datetime.fromtimestamp` accepts the modification
    time (a year from 1 to 9999 that the platform's `time_t` holds). The
    modification time is the local wall-clock time `datetime.fromtimestamp`
    gives, encoded as an integer in the same order.
   */
  datatype FileRecord = FileRecord(name: string, kind: FileKind, size: nat, mtime: int, accessible: bool, mtimeInRange: bool)

  /** The downloads directory: missing, not listable, or its entries in listing order. */
  datatype DirListing = Missing | Unreadable | Listing(entries: seq<FileRecord>)

  /** One library entry as `scan_downloads` builds it (the formatted timestamp aside). */
  datatype Download = Download(
    filename: string,
    path: string,
    size: nat,
    sizeFormatted: FormattedSize,
    modified: int,
    extension: string,
    title: string,
    originalFilename: string)

  /** An accessible regular file whose lower-cased suffix is a video extension. */
  predicate IsListedVideo(f: FileRecord)
    ensures IsListedVideo(f) ==> |Suffix(f.name)| >= 2 && Stem(f.name) != ""
  {
    StemSuffixSplit(f.name);
    f.kind.RegularFile? && Lower(Suffix(f.name)) in VideoExtensions && f.accessible
  }

  /**
    The record built for one listed file: its name, its path inside the
    downloads directory, size and label, modification time, lower-cased
    suffix, and the title and original name taken from its name.
   */
  function ToDownload(f: FileRecord): (d: Download)
    ensures d.filename == f.name && d.originalFilename == f.name
    ensures d.path == DownloadsDir + "/" + f.name
    ensures d.size == f.size && d.sizeFormatted == FormatFileSize(f.size)
    ensures d.modified == f.mtime
    ensures d.extension == Lower(Suffix(f.name))
    ensures d.title == Stem(BaseName(f.name))
    ensures d.title + Suffix(BaseName(f.name)) == BaseName(f.name)
  {
    var info := VideoInfoFromFilename(f.name);
    Download(f.name, DownloadsDir + "/" + f.name, f.size, FormatFileSize(f.size), f.mtime,
             Lower(Suffix(f.name)), info.title, info.originalFilename)
  }

  lemma HeadOrTail<T>(s: seq<T>)
    requires s != []
    ensures forall x :: x in s ==> x == s[0] || x in s[1..]
  {
    forall x | x in s && x != s[0]
      ensures x in s[1..]
    {
      InTail(s, x);
    }
  }

  /** What one entry contributes to the collected list. */
  function CollectHead(f: FileRecord): seq<Download> {
    if IsListedVideo(f) then [ToDownload(f)] else []
  }

  /** The loop body of `scan_downloads`: the listed videos, in listing order. */
  function Collect(es: seq<FileRecord>): (r: seq<Download>)
    ensures |r| <= |es|
    ensures forall d :: d in r ==> exists f :: f in es && IsListedVideo(f) && d == ToDownload(f)
    ensures forall f :: f in es && IsListedVideo(f) ==> ToDownload(f) in r
    decreases |es|
  {
    if es == [] then []
    else
      var rest := Collect(es[1..]);
      var head := CollectHead(es[0]);
      CollectStep(es, head, rest);
      head + rest
  }

  lemma CollectStep(es: seq<FileRecord>, head: seq<Download>, rest: seq<Download>)
    requires es != []
    requires head == CollectHead(es[0])
    requires forall d :: d in rest ==> exists f :: f in es[1..] && IsListedVideo(f) && d == ToDownload(f)
    requires forall f :: f in es[1..] && IsListedVideo(f) ==> ToDownload(f) in rest
    ensures forall d :: d in head + rest ==> exists f :: f in es && IsListedVideo(f) && d == ToDownload(f)
    ensures forall f :: f in es && IsListedVideo(f) ==> ToDownload(f) in head + rest
  {
    HeadOrTail(es);
    forall d | d in head + rest
      ensures exists f :: f in es && IsListedVideo(f) && d == ToDownload(f)
    {
      if d in head {
        assert es[0] in es;
      } else {
        var f :| f in es[1..] && IsListedVideo(f) && d == ToDownload(f);
        assert f in es;
      }
    }
  }

  /** Collecting a listing that is split in two collects each part, in order. */
  lemma {:induction false} CollectConcat(a: seq<FileRecord>, b: seq<FileRecord>)
    ensures Collect(a + b) == Collect(a) + Collect(b)
    decreases |a|
  {
    if a == [] {
      assert a + b == b;
    } else {
      assert (a + b)[0] == a[0];
      assert (a + b)[1..] == a[1..] + b;
      CollectCons(a);
      CollectCons(a + b);
      CollectConcat(a[1..], b);
      ConcatAssoc(CollectHead(a[0]), Collect(a[1..]), Collect(b));
    }
  }

  lemma CollectCons(es: seq<FileRecord>)
    requires es != []
    ensures Collect(es) == CollectHead(es[0]) + Collect(es[1..])
  {
  }

  lemma ConcatAssoc<T>(x: seq<T>, y: seq<T>, z: seq<T>)
    ensures x + (y + z) == (x + y) + z
  {
  }

  /** One entry yields its record exactly when it is a listed video. */
  lemma CollectSingle(f: FileRecord)
    ensures Collect([f]) == if IsListedVideo(f) then [ToDownload(f)] else []
  {
    assert [f][1..] == [];
  }

  /** Each entry is at least as new as the one after it. */
  predicate NewestFirst(s: seq<Download>)
    decreases |s|
  {
    |s| <= 1 || (s[0].modified >= s[1].modified && NewestFirst(s[1..]))
  }

  /** In a newest-first list every entry is at least as new as every later one. */
  lemma {:induction false} NewestFirstOrdersAllPairs(s: seq<Download>)
    requires NewestFirst(s)
    ensures forall i, j :: 0 <= i < j < |s| ==> s[i].modified >= s[j].modified
    decreases |s|
  {
    if |s| >= 2 {
      var tail := s[1..];
      NewestFirstOrdersAllPairs(tail);
      forall i, j | 0 <= i < j < |s|
        ensures s[i].modified >= s[j].modified
      {
        assert s[j] == tail[j - 1];
        if i > 0 {
          assert s[i] == tail[i - 1];
        } else if j > 1 {
          assert s[1] == tail[0];
        }
      }
    }
  }

  /** Inserts `x` after every entry at least as new, which keeps the sort stable. */
  function InsertByMtime(x: Download, s: seq<Download>): (r: seq<Download>)
    ensures multiset(r) == multiset(s) + multiset{x}
    ensures |r| == |s| + 1
    ensures r[0] == x || (s != [] && r[0] == s[0])
    ensures NewestFirst(s) ==> NewestFirst(r)
    decreases |s|
  {
    if s == [] then [x]
    else
      assert s == [s[0]] + s[1..];
      if s[0].modified >= x.modified then
        var rest := InsertByMtime(x, s[1..]);
        assert ([s[0]] + rest)[1..] == rest;
        [s[0]] + rest
      else
        assert ([x] + s)[1..] == s;
        [x] + s
  }

  /** `list.sort(key=modified, reverse=True)` as a stable insertion sort. */
  function SortNewestFirst(s: seq<Download>): (r: seq<Download>)
    ensures multiset(r) == multiset(s)
    ensures NewestFirst(r)
    decreases |s|
  {
    if s == [] then []
    else
      assert s == s[..|s| - 1] + [s[|s| - 1]];
      InsertByMtime(s[|s| - 1], SortNewestFirst(s[..|s| - 1]))
  }

  /**
    Some entry's `is_file()` raises. The loop visits every entry, so the scan
    then reaches the outer handler whatever the order.
   */
  predicate ScanAborts(es: seq<FileRecord>)
    ensures ScanAborts(es) <==> exists f :: f in es && f.kind.StatFails?
  {
    exists i :: 0 <= i < |es| && es[i].kind.StatFails?
  }

  /** The scan gets through the whole listing. */
  predicate Scanned(dir: DirListing)
    ensures Scanned(dir) <==> dir.Listing? && forall f :: f in dir.entries ==> !f.kind.StatFails?
  {
    dir.Listing? && !ScanAborts(dir.entries)
  }

  /**
    The list `scan_downloads` returns when it returns: nothing when the
    directory is missing, cannot be listed or some entry's `is_file()`
    raises; otherwise a permutation of the listed videos, newest first,
    holding every accessible video file and nothing else.
   */
  function ScanDownloads(dir: DirListing): (r: seq<Download>)
    ensures !Scanned(dir) ==> r == []
    ensures Scanned(dir) ==> multiset(r) == multiset(Collect(dir.entries))
    ensures NewestFirst(r)
    ensures Scanned(dir) ==> forall f :: f in dir.entries && IsListedVideo(f) ==> ToDownload(f) in r
    ensures Scanned(dir) ==> forall d :: d in r ==> exists f :: f in dir.entries && IsListedVideo(f) && d == ToDownload(f)
  {
    match dir
    case Listing(es) =>
      if ScanAborts(es) then [] else
      var r := SortNewestFirst(Collect(es));
      assert forall d :: d in r <==> d in Collect(es) by {
        forall d ensures d in r <==> d in Collect(es) {
          assert d in r <==> d in multiset(r);
          assert d in Collect(es) <==> d in multiset(Collect(es));
        }
      }
      r
    case _ => []
  }

  // ----------------------------------------------------- scan: propagation

  /**
    A listed video whose modification time `datetime.fromtimestamp` rejects.
    The ValueError or OverflowError it raises is neither an OSError nor a
    PermissionError, so both handlers let it through.
   */
  predicate BadTimestamp(f: FileRecord) {
    IsListedVideo(f) && !f.mtimeInRange
  }

  /** The two ways an entry ends the loop early. */
  datatype ScanFault = IsFileRaises | TimestampRaises

  /** The first entry, in listing order, at which the loop stops, if any. */
  function FirstFault(es: seq<FileRecord>): Option<ScanFault>
    decreases |es|
  {
    if es == [] then None
    else if es[0].kind.StatFails? then Some(IsFileRaises)
    else if BadTimestamp(es[0]) then Some(TimestampRaises)
    else FirstFault(es[1..])
  }

  /**
    The loop stops at an `is_file()` error only if some entry has one; it
    gets through only if no entry has either fault; and a timestamp error
    leaves the scan exactly when a rejected timestamp comes before every
    `is_file()` error.
   */
  lemma {:induction false} FirstFaultCases(es: seq<FileRecord>)
    ensures FirstFault(es) == Some(IsFileRaises) ==> ScanAborts(es)
    ensures FirstFault(es).None? <==> !ScanAborts(es) && forall i :: 0 <= i < |es| ==> !BadTimestamp(es[i])
    ensures FirstFault(es) == Some(TimestampRaises) <==> TimestampFirst(es)
    decreases |es|
  {
    if es != [] {
      var rest := es[1..];
      FirstFaultCases(rest);
      assert forall i :: 0 < i < |es| ==> es[i] == rest[i - 1];
      if es[0].kind.StatFails? {
        StopAtHead(es, BadTimestamp, IsFileError);
      } else if BadTimestamp(es[0]) {
        HitAtHead(es, BadTimestamp, IsFileError);
      } else {
        HitBeforeStopTail(es, BadTimestamp, IsFileError);
        ScanAbortsTail(es);
      }
    }
  }

  /** The entry's `is_file()` raises. */
  predicate IsFileError(f: FileRecord) {
    f.kind.StatFails?
  }

  /**
    Some rejected timestamp comes before every entry whose `is_file()`
    raises.
   */
  predicate TimestampFirst(es: seq<FileRecord>) {
    HitBeforeStop(es, BadTimestamp, IsFileError)
  }

  /** Some element satisfies `hit` with no element satisfying `stop` before it. */
  predicate HitBeforeStop<T>(s: seq<T>, hit: T -> bool, stop: T -> bool) {
    exists i :: 0 <= i < |s| && hit(s[i]) && forall j :: 0 <= j < i ==> !stop(s[j])
  }

  lemma HitAtHead<T>(s: seq<T>, hit: T -> bool, stop: T -> bool)
    requires s != [] && hit(s[0])
    ensures HitBeforeStop(s, hit, stop)
  {
    assert hit(s[0]);
  }

  lemma StopAtHead<T>(s: seq<T>, hit: T -> bool, stop: T -> bool)
    requires s != [] && stop(s[0]) && !hit(s[0])
    ensures !HitBeforeStop(s, hit, stop)
  {
    forall i | 0 <= i < |s| && hit(s[i])
      ensures exists j :: 0 <= j < i && stop(s[j])
    {
      assert 0 < i;
    }
  }

  /** Past a head that neither hits nor stops, the question moves to the tail. */
  lemma HitBeforeStopTail<T>(s: seq<T>, hit: T -> bool, stop: T -> bool)
    requires s != [] && !hit(s[0]) && !stop(s[0])
    ensures HitBeforeStop(s, hit, stop) <==> HitBeforeStop(s[1..], hit, stop)
  {
    var rest := s[1..];
    if HitBeforeStop(s, hit, stop) {
      var i :| 0 <= i < |s| && hit(s[i]) && forall j :: 0 <= j < i ==> !stop(s[j]);
      assert rest[i - 1] == s[i];
      assert forall j :: 0 <= j < i - 1 ==> rest[j] == s[j + 1];
    }
    if HitBeforeStop(rest, hit, stop) {
      var i :| 0 <= i < |rest| && hit(rest[i]) && forall j :: 0 <= j < i ==> !stop(rest[j]);
      assert s[i + 1] == rest[i];
      assert forall j :: 0 < j < i + 1 ==> s[j] == rest[j - 1];
    }
  }

  lemma ScanAbortsTail(es: seq<FileRecord>)
    requires es != [] && !es[0].kind.StatFails?
    ensures ScanAborts(es) <==> ScanAborts(es[1..])
  {
    HeadOrTail(es);
  }

  /**
    `scan_downloads` as a call: it raises exactly when a rejected timestamp
    comes before every `is_file()` error of the listing (the rejected time
    is read before the loop meets the later error); otherwise it returns the
    list above.
   */
  function ScanOutcome(dir: DirListing): (r: Outcome<seq<Download>>)
    ensures r.Raised? <==> dir.Listing? && TimestampFirst(dir.entries)
    ensures r.Returned? ==> r.value == ScanDownloads(dir)
    ensures r.Returned? && Scanned(dir) ==> forall f :: f in dir.entries ==> !BadTimestamp(f)
  {
    match dir
    case Listing(es) =>
      FirstFaultCases(es);
      if FirstFault(es) == Some(TimestampRaises) then Raised
      else
        assert Scanned(dir) ==> forall f :: f in es ==> !BadTimestamp(f) by {
          if Scanned(dir) {
            forall f | f in es ensures !BadTimestamp(f) {
              var i :| 0 <= i < |es| && es[i] == f;
            }
          }
        }
        Returned(ScanDownloads(dir))
    case _ => Returned([])
  }

  // ------------------------------------------------------ scan: stability

  /** The entries of `s` with modification time `t`, in order. */
  function WithMtime(s: seq<Download>, t: int): seq<Download>
    decreases |s|
  {
    if s == [] then []
    else (if s[0].modified == t then [s[0]] else []) + WithMtime(s[1..], t)
  }

  lemma {:induction false} WithMtimeConcat(a: seq<Download>, b: seq<Download>, t: int)
    ensures WithMtime(a + b, t) == WithMtime(a, t) + WithMtime(b, t)
    decreases |a|
  {
    if a != [] {
      var h := if a[0].modified == t then [a[0]] else [];
      assert (a + b)[0] == a[0];
      assert (a + b)[1..] == a[1..] + b;
      assert WithMtime(a + b, t) == h + WithMtime(a[1..] + b, t);
      assert WithMtime(a, t) == h + WithMtime(a[1..], t);
      WithMtimeConcat(a[1..], b, t);
      assert WithMtime(a + b, t) == h + (WithMtime(a[1..], t) + WithMtime(b, t));
    } else {
      assert a + b == b;
    }
  }

  lemma SplitLast<T>(s: seq<T>)
    requires s != []
    ensures s == s[..|s| - 1] + [s[|s| - 1]]
  {
  }

  lemma WithMtimeSnoc(init: seq<Download>, last: Download, t: int)
    ensures WithMtime(init + [last], t) == WithMtime(init, t) + (if last.modified == t then [last] else [])
  {
    WithMtimeConcat(init, [last], t);
    assert [last][1..] == [];
  }

  lemma {:induction false} WithMtimeNone(s: seq<Download>, t: int)
    requires forall i :: 0 <= i < |s| ==> s[i].modified < t
    ensures WithMtime(s, t) == []
    decreases |s|
  {
    if s != [] {
      WithMtimeNone(s[1..], t);
    }
  }

  lemma ConcatChain<T>(w: seq<T>, head: seq<T>, tailW: seq<T>, rest: seq<T>, added: seq<T>, whole: seq<T>)
    requires w == head + tailW && tailW == rest + added && whole == head + rest
    ensures w == whole + added
  {
  }

  /** Every entry of a newest-first list is at most as new as its head. */
  lemma OlderThanHead(s: seq<Download>, t: int)
    requires NewestFirst(s) && s != [] && s[0].modified < t
    ensures forall i :: 0 <= i < |s| ==> s[i].modified < t
  {
    NewestFirstOrdersAllPairs(s);
  }

  lemma WithMtimeSingle(x: Download, t: int)
    ensures WithMtime([x], t) == if x.modified == t then [x] else []
  {
    assert [x][1..] == [];
  }

  /** Inserting in front of a list that is strictly older adds `x` after no equal entry. */
  lemma InsertInFront(x: Download, s: seq<Download>, t: int)
    requires NewestFirst(s) && s != [] && s[0].modified < x.modified
    ensures WithMtime([x] + s, t) == WithMtime(s, t) + (if x.modified == t then [x] else [])
  {
    WithMtimeCons(x, s, t);
    WithMtimeSingle(x, t);
    if x.modified == t {
      OlderThanHead(s, t);
      WithMtimeNone(s, t);
    }
  }

  /** Splitting the head off a non-empty list distributes `WithMtime`. */
  lemma WithMtimeCons(h: Download, rest: seq<Download>, t: int)
    ensures WithMtime([h] + rest, t) == WithMtime([h], t) + WithMtime(rest, t)
  {
    WithMtimeConcat([h], rest, t);
  }

  /** How `InsertByMtime` takes one step. */
  lemma InsertStep(x: Download, s: seq<Download>)
    requires s != []
    ensures s[0].modified >= x.modified ==> InsertByMtime(x, s) == [s[0]] + InsertByMtime(x, s[1..])
    ensures s[0].modified < x.modified ==> InsertByMtime(x, s) == [x] + s
  {
  }

  /** Keeping the head in front carries a stable tail over to the whole list. */
  lemma StableBehindHead(s: seq<Download>, tail: seq<Download>, added: seq<Download>, t: int)
    requires s != []
    requires WithMtime(tail, t) == WithMtime(s[1..], t) + added
    ensures WithMtime([s[0]] + tail, t) == WithMtime(s, t) + added
  {
    WithMtimeCons(s[0], tail, t);
    assert [s[0]] + s[1..] == s;
    WithMtimeCons(s[0], s[1..], t);
    ConcatChain(WithMtime([s[0]] + tail, t), WithMtime([s[0]], t), WithMtime(tail, t),
                WithMtime(s[1..], t), added, WithMtime(s, t));
  }

  lemma {:induction false} InsertStable(x: Download, s: seq<Download>, t: int)
    requires NewestFirst(s)
    ensures WithMtime(InsertByMtime(x, s), t) == WithMtime(s, t) + (if x.modified == t then [x] else [])
    decreases |s|
  {
    if s != [] {
      InsertStep(x, s);
      if s[0].modified >= x.modified {
        InsertStable(x, s[1..], t);
        StableBehindHead(s, InsertByMtime(x, s[1..]), if x.modified == t then [x] else [], t);
      } else {
        InsertInFront(x, s, t);
      }
    }
  }

  /**
    The sort is stable: the entries sharing a modification time keep their
    listing order.
   */
  lemma {:induction false} SortStable(s: seq<Download>, t: int)
    ensures WithMtime(SortNewestFirst(s), t) == WithMtime(s, t)
    decreases |s|
  {
    if s != [] {
      var init, last := s[..|s| - 1], s[|s| - 1];
      var sortedInit := SortNewestFirst(init);
      var added := if last.modified == t then [last] else [];
      assert SortNewestFirst(s) == InsertByMtime(last, sortedInit);
      assert WithMtime(SortNewestFirst(s), t) == WithMtime(sortedInit, t) + added by {
        InsertStable(last, sortedInit, t);
      }
      assert WithMtime(sortedInit, t) == WithMtime(init, t) by {
        SortStable(init, t);
      }
      SplitLast(s);
      WithMtimeSnoc(init, last, t);
    }
  }

  /**
    The scan lists the videos sharing a modification time in listing order,
    as collected.
   */
  lemma ScanKeepsListingOrder(dir: DirListing, t: int)
    requires Scanned(dir)
    ensures WithMtime(ScanDownloads(dir), t) == WithMtime(Collect(dir.entries), t)
  {
    SortStable(Collect(dir.entries), t);
  }

  lemma InTail<T>(s: seq<T>, x: T)
    requires x in s && x != s[0]
    ensures x in s[1..]
  {
    var k :| 0 <= k < |s| && s[k] == x;
    assert s[1..][k - 1] == x;
  }

  /** No two entries of a directory listing share a name. */
  ghost predicate DistinctNames(es: seq<FileRecord>) {
    forall i, j :: 0 <= i < j < |es| ==> es[i].name != es[j].name
  }

  lemma DistinctNamesTail(es: seq<FileRecord>)
    requires DistinctNames(es) && es != []
    ensures DistinctNames(es[1..])
    ensures forall g :: g in es[1..] ==> g.name != es[0].name
  {
    var rest := es[1..];
    forall i, j | 0 <= i < j < |rest|
      ensures rest[i].name != rest[j].name
    {
      assert rest[i] == es[i + 1] && rest[j] == es[j + 1];
    }
    forall g | g in rest
      ensures g.name != es[0].name
    {
      var k :| 0 <= k < |rest| && rest[k] == g;
      assert es[k + 1] == g;
    }
  }

  /** A name that no entry carries yields no collected download. */
  lemma NotCollected(es: seq<FileRecord>, f: FileRecord)
    requires forall g :: g in es ==> g.name != f.name
    ensures ToDownload(f) !in Collect(es)
  {
  }

  /** With distinct names in the listing, every listed video is collected exactly once. */
  lemma {:induction false} CollectOnce(es: seq<FileRecord>, f: FileRecord)
    requires DistinctNames(es)
    requires f in es && IsListedVideo(f)
    ensures multiset(Collect(es))[ToDownload(f)] == 1
    decreases |es|
  {
    var d := ToDownload(f);
    var rest := es[1..];
    CollectHeadCount(es, d);
    DistinctNamesTail(es);
    if es[0] == f {
      NotCollected(rest, f);
    } else {
      InTail(es, f);
      CollectOnce(rest, f);
    }
  }

  /** How many times `d` is collected: once for a matching head, plus the tail's count. */
  lemma CollectHeadCount(es: seq<FileRecord>, d: Download)
    requires es != []
    ensures multiset(Collect(es))[d] == (if IsListedVideo(es[0]) && ToDownload(es[0]) == d then 1 else 0) + multiset(Collect(es[1..]))[d]
  {
    var head := CollectHead(es[0]);
    CollectCons(es);
    assert multiset(head + Collect(es[1..])) == multiset(head) + multiset(Collect(es[1..]));
  }

  /**
    With distinct names in the listing, every listed video appears exactly
    once in the scan, unless the scan aborts and lists nothing.
   */
  lemma ScanListsOnce(es: seq<FileRecord>, f: FileRecord)
    requires DistinctNames(es)
    requires f in es && IsListedVideo(f)
    ensures multiset(ScanDownloads(Listing(es)))[ToDownload(f)] == if ScanAborts(es) then 0 else 1
  {
    if !ScanAborts(es) {
      CollectOnce(es, f);
    }
  }

  // ----------------------------------------------------------------- stats

  /** The listed videos in listing order, before sorting. */
  function ListedVideos(dir: DirListing): seq<Download> {
    if Scanned(dir) then Collect(dir.entries) else []
  }

  /** The sum of the sizes: at least each entry's size, and zero only when every size is. */
  function TotalSize(s: seq<Download>): (r: nat)
    ensures forall i :: 0 <= i < |s| ==> s[i].size <= r
    ensures r == 0 <==> forall i :: 0 <= i < |s| ==> s[i].size == 0
    decreases |s|
  {
    if s == [] then 0
    else
      var rest := TotalSize(s[1..]);
      assert forall i :: 0 < i < |s| ==> s[i] == s[1..][i - 1];
      s[0].size + rest
  }

  lemma {:induction false} TotalSizeInsert(x: Download, s: seq<Download>)
    ensures TotalSize(InsertByMtime(x, s)) == x.size + TotalSize(s)
    decreases |s|
  {
    if s != [] && s[0].modified >= x.modified {
      var rest := InsertByMtime(x, s[1..]);
      assert ([s[0]] + rest)[1..] == rest;
      TotalSizeInsert(x, s[1..]);
    } else if s != [] {
      assert ([x] + s)[1..] == s;
    }
  }

  lemma {:induction false} TotalSizeSnoc(s: seq<Download>, x: Download)
    ensures TotalSize(s + [x]) == TotalSize(s) + x.size
    decreases |s|
  {
    if s == [] {
      assert [] + [x] == [x];
      assert [x][1..] == [];
    } else {
      assert (s + [x])[1..] == s[1..] + [x];
      TotalSizeSnoc(s[1..], x);
    }
  }

  /** Sorting does not change the total size. */
  lemma {:induction false} TotalSizeSort(s: seq<Download>)
    ensures TotalSize(SortNewestFirst(s)) == TotalSize(s)
    decreases |s|
  {
    if s != [] {
      var init, last := s[..|s| - 1], s[|s| - 1];
      TotalSizeSort(init);
      TotalSizeInsert(last, SortNewestFirst(init));
      SplitLast(s);
      TotalSizeSnoc(init, last);
    }
  }

  /** The scan holds the listed videos: as many, with the same total size. */
  lemma ScanMatchesListed(dir: DirListing)
    ensures multiset(ScanDownloads(dir)) == multiset(ListedVideos(dir))
    ensures |ScanDownloads(dir)| == |ListedVideos(dir)|
    ensures TotalSize(ScanDownloads(dir)) == TotalSize(ListedVideos(dir))
  {
    var files, listed := ScanDownloads(dir), ListedVideos(dir);
    if Scanned(dir) {
      assert files == SortNewestFirst(listed);
      TotalSizeSort(listed);
    }
    assert |multiset(files)| == |files| && |multiset(listed)| == |listed|;
  }

  /** The head of a newest-first permutation is a newest element. */
  lemma HeadIsNewest(files: seq<Download>, listed: seq<Download>)
    requires NewestFirst(files) && files != []
    requires multiset(files) == multiset(listed)
    ensures files[0] in listed
    ensures forall d :: d in listed ==> d.modified <= files[0].modified
  {
    NewestFirstOrdersAllPairs(files);
    assert files[0] in multiset(listed);
    forall d | d in listed
      ensures d.modified <= files[0].modified
    {
      assert d in multiset(files);
      var j :| 0 <= j < |files| && files[j] == d;
    }
  }

  datatype Stats = Stats(totalFiles: nat, totalSize: nat, totalSizeFormatted: FormattedSize, latestDownload: Option<int>)

  /**
    `get_downloads_stats`: the number of listed videos, the sum of their
    sizes and its label, and the newest modification time among them (None
    when there are none), whatever order the directory lists them in.
   */
  function DownloadsStats(dir: DirListing): (r: Stats)
    ensures r.totalFiles == |ListedVideos(dir)|
    ensures r.totalSize == TotalSize(ListedVideos(dir))
    ensures r.totalSizeFormatted == FormatFileSize(r.totalSize)
    ensures r.totalSizeFormatted.ZeroBytes? <==> r.totalSize == 0
    ensures r.latestDownload.None? <==> ListedVideos(dir) == []
    ensures r.latestDownload.Some? ==>
      && (exists d :: d in ListedVideos(dir) && d.modified == r.latestDownload.value)
      && (forall d :: d in ListedVideos(dir) ==> d.modified <= r.latestDownload.value)
  {
    var files := ScanDownloads(dir);
    ScanMatchesListed(dir);
    var total := TotalSize(files);
    if files == [] then
      Stats(0, total, FormatFileSize(total), None)
    else
      HeadIsNewest(files, ListedVideos(dir));
      Stats(|files|, total, FormatFileSize(total), Some(files[0].modified))
  }

  /**
    `get_downloads_stats` as a call: it raises exactly when the scan does,
    and otherwise returns the statistics above.
   */
  function StatsOutcome(dir: DirListing): (r: Outcome<Stats>)
    ensures r.Raised? <==> dir.Listing? && TimestampFirst(dir.entries)
    ensures r.Returned? ==> r.value == DownloadsStats(dir)
  {
    match ScanOutcome(dir)
    case Raised => Raised
    case Returned(_) => Returned(DownloadsStats(dir))
  }

  // ---------------------------------------------------------------- delete

  /**
    One file-system node: what `exists()` and `is_file()` find there (a
    regular file, something else, or a `stat` error they re-raise), and
    whether unlinking it succeeds.
   */
  datatype FsNode = FsNode(kind: FileKind, removable: bool)

  /**
    The file system after resolution: each resolved path that `stat` does
    not report missing, and its node.
   */
  type FileSystem = map<string, FsNode>

  datatype DeleteError = InvalidPath | NotFound | PermissionDenied

  /** The error text returned for each failure (a permission error also carries the system's message). */
  function ErrorText(e: DeleteError): (t: string)
    ensures t != ""
    ensures e.InvalidPath? ==> t == "Invalid file path"
    ensures e.NotFound? ==> t == "File not found"
    ensures e.PermissionDenied? ==> t == "Permission denied: "
  {
    match e
    case InvalidPath => "Invalid file path"
    case NotFound => "File not found"
    case PermissionDenied => "Permission denied: "
  }

  /** The result dict: success with a message, or failure with an error text. */
  datatype DeleteOutcome = Deleted(message: string) | Failed(error: DeleteError) {
    /** The "message" entry on success, the "error" entry on failure. */
    function ResponseText(): string {
      if Deleted? then message else ErrorText(error)
    }
  }

  /** A client can tell the three failures apart by their texts. */
  lemma ErrorTextsDistinct(a: DeleteError, b: DeleteError)
    ensures ErrorText(a) == ErrorText(b) <==> a == b
    ensures a.PermissionDenied? <==> "Permission denied: " <= ErrorText(a)
  {
  }

  /** `PurePath(dir) / name`: an absolute name replaces `dir`, an empty one adds nothing. */
  function JoinPath(dir: string, name: string): (r: string)
    ensures name == "" ==> r == dir
    ensures name != "" && name[0] == '/' ==> r == name
    ensures name != "" && name[0] != '/' ==>
      && |r| == |dir| + 1 + |name|
      && r[..|dir|] == dir && r[|dir|] == '/' && r[|dir| + 1..] == name
  {
    if name == "" then dir
    else if name[0] == '/' then name
    else dir + "/" + name
  }

  /** `exists() and is_file()` is false at `p` without raising. */
  predicate NoFileAt(fs: FileSystem, p: string) {
    p !in fs || fs[p].kind.NotRegular?
  }

  /**
    An OSError leaves the guarded removal at `p`: the `stat` behind
    `exists()` raises, or `unlink()` of a regular file fails.
   */
  predicate RemovalRaisesAt(fs: FileSystem, p: string) {
    p in fs && (fs[p].kind.StatFails? || (fs[p].kind.RegularFile? && !fs[p].removable))
  }

  /**
    The part of `delete_download` after the confinement check: only an
    existing regular file is unlinked, and then only that path leaves the
    file system; a path that is missing or not a file is "File not found";
    an OSError from the checks or from `unlink()` reaches the handler as a
    permission error. Every failure leaves the file system as it was.
   */
  function RemoveRegularFile(filename: string, target: string, fs: FileSystem): (r: (DeleteOutcome, FileSystem))
    ensures r.0.Deleted? <==> target in fs && fs[target].kind.RegularFile? && fs[target].removable
    ensures r.0.Deleted? ==> r.0.message == "Deleted " + filename
    ensures r.0.Deleted? ==> r.1.Keys == fs.Keys - {target}
    ensures forall p :: p in fs && p != target ==> p in r.1 && r.1[p] == fs[p]
    ensures !r.0.Deleted? ==> r.1 == fs
    ensures r.0 == Failed(NotFound) <==> NoFileAt(fs, target)
    ensures r.0 == Failed(PermissionDenied) <==> RemovalRaisesAt(fs, target)
    ensures r.0 != Failed(InvalidPath)
  {
    if target in fs && fs[target].kind.StatFails? then (Failed(PermissionDenied), fs)
    else if target in fs && fs[target].kind.RegularFile? then
      if fs[target].removable then (Deleted("Deleted " + filename), fs - {target})
      else (Failed(PermissionDenied), fs)
    else (Failed(NotFound), fs)
  }

  /**
    `delete_download`: the joined path and the downloads directory are
    resolved; a target whose text does not start with the directory's text is
    refused with nothing removed; otherwise the guarded removal runs. The test
    is a plain string prefix, so a sibling such as "/srv/downloads-old/..."
    passes it for the directory "/srv/downloads".
   */
  function DeleteDownload(filename: string, fs: FileSystem, resolve: string -> string): (r: (DeleteOutcome, FileSystem))
    ensures var target, root := resolve(JoinPath(DownloadsDir, filename)), resolve(DownloadsDir);
      && (!(root <= target) ==> r == (Failed(InvalidPath), fs))
      && (r.0.Deleted? <==> root <= target && target in fs && fs[target].kind.RegularFile? && fs[target].removable)
      && (r.0.Deleted? ==> r.1.Keys == fs.Keys - {target})
      && (r.0.Deleted? ==> r.0.ResponseText() == "Deleted " + filename)
      && (forall p :: p in fs && p != target ==> p in r.1 && r.1[p] == fs[p])
      && (!r.0.Deleted? ==> r.1 == fs)
      && (r.0 == Failed(NotFound) <==> root <= target && NoFileAt(fs, target))
      && (r.0 == Failed(PermissionDenied) <==> root <= target && RemovalRaisesAt(fs, target))
  {
    var target := resolve(JoinPath(DownloadsDir, filename));
    var root := resolve(DownloadsDir);
    if !(root <= target) then (Failed(InvalidPath), fs)
    else RemoveRegularFile(filename, target, fs)
  }

  /** `root` followed by exactly one separator. */
  function DirPrefix(root: string): string {
    if |root| > 0 && root[|root| - 1] == '/' then root else root + "/"
  }

  /** `path` is the directory `root` itself or lies below it. */
  predicate IsUnder(root: string, path: string) {
    path == root || DirPrefix(root) <= path
  }

  lemma UnderIsPrefix(root: string, path: string)
    requires IsUnder(root, path)
    ensures root <= path
  {
    if path != root {
      assert root <= DirPrefix(root);
      assert path[..|root|] == DirPrefix(root)[..|root|];
    }
  }

  /**
    Deletion with the confinement the check evidently intends: the target
    must be the downloads directory or lie below it. Inside the directory it
    behaves exactly like `DeleteDownload`; nothing outside is ever removed.
   */
  function DeleteDownloadConfined(filename: string, fs: FileSystem, resolve: string -> string): (r: (DeleteOutcome, FileSystem))
    ensures var target, root := resolve(JoinPath(DownloadsDir, filename)), resolve(DownloadsDir);
      && (r.0.Deleted? ==> IsUnder(root, target))
      && (!IsUnder(root, target) ==> r == (Failed(InvalidPath), fs))
      && (IsUnder(root, target) ==> r == DeleteDownload(filename, fs, resolve))
  {
    var target := resolve(JoinPath(DownloadsDir, filename));
    var root := resolve(DownloadsDir);
    if !IsUnder(root, target) then (Failed(InvalidPath), fs)
    else
      UnderIsPrefix(root, target);
      RemoveRegularFile(filename, target, fs)
  }

  /** The example below: the downloads directory resolves to /srv/downloads. */
  const SiblingRoot: string := "/srv/downloads"

  /** A file in the sibling directory /srv/downloads-old. */
  const SiblingTarget: string := "/srv/downloads-old/a.mp4"

  /** The request that reaches it from the downloads directory. */
  const SiblingRequest: string := "../downloads-old/a.mp4"

  /** Resolution in the example: the joined request resolves to the sibling file. */
  function SiblingResolve(p: string): string {
    if p == DownloadsDir then SiblingRoot
    else if p == JoinPath(DownloadsDir, SiblingRequest) then SiblingTarget
    else "/srv/" + p
  }

  /** The example resolves the directory and the request as described. */
  lemma SiblingResolves()
    ensures SiblingResolve(DownloadsDir) == SiblingRoot
    ensures SiblingResolve(JoinPath(DownloadsDir, SiblingRequest)) == SiblingTarget
  {
    assert |JoinPath(DownloadsDir, SiblingRequest)| != |DownloadsDir|;
  }

  /** The sibling file starts with the directory's text but does not lie below it. */
  lemma SiblingPassesPrefix()
    ensures SiblingRoot <= SiblingTarget
    ensures !IsUnder(SiblingRoot, SiblingTarget)
  {
    assert SiblingTarget[..|SiblingRoot|] == SiblingRoot;
    assert DirPrefix(SiblingRoot) == SiblingRoot + "/";
    assert DirPrefix(SiblingRoot)[14] == '/' && SiblingTarget[14] == '-';
  }

  /**
    The prefix test lets a request escape to a sibling directory: with the
    downloads directory at /srv/downloads, "../downloads-old/a.mp4" deletes
    /srv/downloads-old/a.mp4, which is not under the directory.
   */
  lemma PrefixCheckAdmitsSibling()
    ensures var fs := map[SiblingTarget := FsNode(RegularFile, true)];
      var r := DeleteDownload(SiblingRequest, fs, SiblingResolve);
      && r.0.Deleted?
      && r.1 == map[]
      && !IsUnder(SiblingRoot, SiblingTarget)
  {
    SiblingResolves();
    SiblingPassesPrefix();
    var fs := map[SiblingTarget := FsNode(RegularFile, true)];
    assert fs.Keys - {SiblingTarget} == {};
  }

  /** The confined deletion refuses the same request and removes nothing. */
  lemma ConfinedRejectsSibling()
    ensures var fs := map[SiblingTarget := FsNode(RegularFile, true)];
      DeleteDownloadConfined(SiblingRequest, fs, SiblingResolve) == (Failed(InvalidPath), fs)
  {
    SiblingResolves();
    SiblingPassesPrefix();
  }
}

=== FILE: search.dfy ===
/**
  The offline demo catalogue: a fixed list of four videos, a case-insensitive
  substring search over titles and channels, and lookup by id.
 */
module Search {
  import opened Wrappers
  import opened Text

  datatype Video = Video(id: string, title: string, channel: string, duration: string, description: string)

  /** `_SAMPLE_VIDEOS`, in their declared order. */
  const SampleVideos: seq<Video> := [
    Video("a1", "Getting started with FastAPI", "PlayYT Labs", "10:01", "A beginner-friendly intro to FastAPI."),
    Video("b2", "Python 3 Basics Tutorial", "Code Academy", "14:22", "Learn Python 3 fundamentals."),
    Video("c3", "Understanding Async IO in Python", "Tech Explained", "9:45", "Concepts and patterns for async IO."),
    Video("d4", "Top 10 FastAPI Tips", "PlayYT Labs", "7:30", "Tips and tricks for building with FastAPI.")
  ]

  /**
    `q in title.lower() or q in channel.lower()`: the (already lower-cased)
    query occurs at some position of the lower-cased title or channel.
   */
  predicate Matches(q: string, v: Video)
    ensures Matches(q, v) <==>
      (exists i :: OccursAt(q, Lower(v.title), i)) || (exists i :: OccursAt(q, Lower(v.channel), i))
  {
    ContainsIffOccurs(q, Lower(v.title));
    ContainsIffOccurs(q, Lower(v.channel));
    Contains(q, Lower(v.title)) || Contains(q, Lower(v.channel))
  }

  /** `a` is `b` with some elements dropped, the rest kept in order. */
  ghost predicate IsSubsequence<T>(a: seq<T>, b: seq<T>)
    decreases |b|
  {
    if a == [] then true
    else if b == [] then false
    else if a[0] == b[0] then IsSubsequence(a[1..], b[1..])
    else IsSubsequence(a, b[1..])
  }

  lemma {:induction false} SubsequenceNotLonger<T>(a: seq<T>, b: seq<T>)
    requires IsSubsequence(a, b)
    ensures |a| <= |b|
    decreases |b|
  {
    if a != [] {
      if a[0] == b[0] {
        SubsequenceNotLonger(a[1..], b[1..]);
      } else {
        SubsequenceNotLonger(a, b[1..]);
      }
    }
  }

  /** The list comprehension: the videos of `vs` matching `q`, in order. */
  function Select(q: string, vs: seq<Video>): (r: seq<Video>)
    ensures forall v :: v in r ==> v in vs && Matches(q, v)
    ensures forall v :: v in vs && Matches(q, v) ==> v in r
    ensures IsSubsequence(r, vs)
    decreases |vs|
  {
    if vs == [] then []
    else if Matches(q, vs[0]) then [vs[0]] + Select(q, vs[1..])
    else Select(q, vs[1..])
  }

  /**
    `search_videos`: the empty query finds nothing; otherwise exactly the
    sample videos whose lower-cased title or channel contains the
    lower-cased query, in catalogue order.
   */
  function SearchVideos(query: string): (r: seq<Video>)
    ensures query == "" ==> r == []
    ensures query != "" ==> forall v :: v in r <==> v in SampleVideos && Matches(Lower(query), v)
    ensures IsSubsequence(r, SampleVideos)
  {
    if query == "" then [] else Select(Lower(query), SampleVideos)
  }

  /** No search returns more than the four sample videos. */
  lemma SearchVideosBounded(query: string)
    ensures |SearchVideos(query)| <= |SampleVideos| == 4
  {
    SubsequenceNotLonger(SearchVideos(query), SampleVideos);
  }

  /** Upper-casing an (ASCII) query does not change the answer. */
  lemma SearchCaseInsensitive(query: string)
    ensures SearchVideos(Upper(query)) == SearchVideos(query)
  {
    LowerOfUpper(query);
  }

  /** The query is lower-cased first, so a lower-cased query gives the same answer. */
  lemma SearchLowerQuery(query: string)
    ensures SearchVideos(Lower(query)) == SearchVideos(query)
  {
    LowerIdempotent(query);
  }

  /** Soundness in terms of positions: every hit contains the query somewhere. */
  lemma SearchHitsContainQuery(query: string, v: Video)
    ensures v in SearchVideos(query) ==>
      && query != ""
      && ((exists i :: OccursAt(Lower(query), Lower(v.title), i))
          || (exists i :: OccursAt(Lower(query), Lower(v.channel), i)))
  {
    ContainsIffOccurs(Lower(query), Lower(v.title));
    ContainsIffOccurs(Lower(query), Lower(v.channel));
  }

  /** The first position in `vs` holding `id`, or `|vs|` when none does. */
  function FirstWithId(vs: seq<Video>, id: string): (i: nat)
    ensures i <= |vs|
    ensures i < |vs| ==> vs[i].id == id
    ensures forall j :: 0 <= j < i ==> vs[j].id != id
    decreases |vs|
  {
    if vs == [] then 0
    else if vs[0].id == id then 0
    else 1 + FirstWithId(vs[1..], id)
  }

  /**
    `get_video`: the first sample video with the given id, and None exactly
    when no sample video has it.
   */
  function GetVideo(id: string): (r: Option<Video>)
    ensures r.None? <==> forall v :: v in SampleVideos ==> v.id != id
    ensures r.Some? ==> exists i :: 0 <= i < |SampleVideos| && SampleVideos[i] == r.value && r.value.id == id
                                   && forall j :: 0 <= j < i ==> SampleVideos[j].id != id
  {
    var i := FirstWithId(SampleVideos, id);
    if i < |SampleVideos| then Some(SampleVideos[i]) else None
  }

  /** A catalogue id finds its video. */
  lemma GetVideoFindsC3()
    ensures GetVideo("c3") == Some(SampleVideos[2])
  {
    var r := GetVideo("c3");
    assert SampleVideos[2].id == "c3";
    var i :| 0 <= i < |SampleVideos| && SampleVideos[i] == r.value && r.value.id == "c3";
    assert SampleVideos[0].id != "c3" && SampleVideos[1].id != "c3" && SampleVideos[3].id != "c3";
  }

  /** An id no sample has finds nothing. */
  lemma GetVideoMissesUnknown()
    ensures GetVideo("zz") == None
  {
    var i := FirstWithId(SampleVideos, "zz");
    assert SampleVideos[0].id != "zz" && SampleVideos[1].id != "zz";
    assert SampleVideos[2].id != "zz" && SampleVideos[3].id != "zz";
    assert i == |SampleVideos|;
  }

  /** Looking up a catalogue id and an unknown one. */
  lemma GetVideoExamples()
    ensures GetVideo("c3") == Some(SampleVideos[2])
    ensures GetVideo("zz") == None
  {
    GetVideoFindsC3();
    GetVideoMissesUnknown();
  }

  /** Both FastAPI videos are found by a mixed-case query. */
  lemma SearchFindsFastApiVideos()
    ensures SampleVideos[0] in SearchVideos("FastAPI")
    ensures SampleVideos[3] in SearchVideos("FastAPI")
  {
    var q := Lower("FastAPI");
    var title0, title3 := SampleVideos[0].title, SampleVideos[3].title;
    assert title0[21..28] == "FastAPI";
    assert title3[7..14] == "FastAPI";
    LowerSlice(title0, 21, 28);
    LowerSlice(title3, 7, 14);
    assert OccursAt(q, Lower(title0), 21);
    assert OccursAt(q, Lower(title3), 7);
  }
}

=== FILE: text.dfy ===
/**
  String helpers shared by the services: ASCII case mapping (the model of
  `str.lower()` / `str.upper()`), substring search (Python's `needle in hay`),
  decimal rendering as done by `f"{n:d}"` and `f"{n:02d}"`, and a decimal
  reader with splitting on a separator character, used to read rendered
  durations back.
 */
module Text {
  import opened Wrappers

  // ---------------------------------------------------------------- case

  /** ASCII lower-casing of one character; every other character is kept. */
  function LowerChar(c: char): char {
    if 'A' <= c <= 'Z' then (c as int - 'A' as int + 'a' as int) as char else c
  }

  /** ASCII upper-casing of one character; every other character is kept. */
  function UpperChar(c: char): char {
    if 'a' <= c <= 'z' then (c as int - 'a' as int + 'A' as int) as char else c
  }

  function Lower(s: string): (r: string)
    ensures |r| == |s|
    ensures forall i :: 0 <= i < |s| ==> r[i] == LowerChar(s[i])
  {
    seq(|s|, i requires 0 <= i < |s| => LowerChar(s[i]))
  }

  function Upper(s: string): (r: string)
    ensures |r| == |s|
    ensures forall i :: 0 <= i < |s| ==> r[i] == UpperChar(s[i])
  {
    seq(|s|, i requires 0 <= i < |s| => UpperChar(s[i]))
  }

  /** Lower-casing forgets any earlier upper-casing. */
  lemma LowerOfUpper(s: string)
    ensures Lower(Upper(s)) == Lower(s)
  {
  }

  /** Lower-casing is idempotent. */
  lemma LowerIdempotent(s: string)
    ensures Lower(Lower(s)) == Lower(s)
  {
  }

  /** Lower-casing works character by character, so it commutes with slicing. */
  lemma LowerSlice(s: string, i: int, j: int)
    requires 0 <= i <= j <= |s|
    ensures Lower(s)[i..j] == Lower(s[i..j])
  {
  }

  // ----------------------------------------------------------- substrings

  /** `needle` occurs in `hay` starting at index `i`. */
  ghost predicate OccursAt(needle: string, hay: string, i: int) {
    0 <= i && i + |needle| <= |hay| && hay[i..i + |needle|] == needle
  }

  /** Python's `needle in hay` on strings (the empty needle is in every string). */
  predicate Contains(needle: string, hay: string)
    decreases |hay|
  {
    needle <= hay || (|hay| > 0 && Contains(needle, hay[1..]))
  }

  /** A prefix is an occurrence at position 0. */
  lemma PrefixIsOccurrenceAtZero(needle: string, hay: string)
    ensures needle <= hay <==> OccursAt(needle, hay, 0)
  {
    if OccursAt(needle, hay, 0) {
      assert hay[..|needle|] == needle;
    }
  }

  /** `Contains` holds exactly when the needle occurs at some position. */
  lemma {:induction false} ContainsIffOccurs(needle: string, hay: string)
    ensures Contains(needle, hay) <==> exists i :: OccursAt(needle, hay, i)
    decreases |hay|
  {
    PrefixIsOccurrenceAtZero(needle, hay);
    if needle <= hay {
      assert OccursAt(needle, hay, 0);
    } else if |hay| > 0 {
      ContainsIffOccurs(needle, hay[1..]);
      if Contains(needle, hay[1..]) {
        var i :| OccursAt(needle, hay[1..], i);
        assert hay[1..][i..i + |needle|] == hay[i + 1..i + 1 + |needle|];
        assert OccursAt(needle, hay, i + 1);
      }
      if i :| OccursAt(needle, hay, i) {
        assert hay[1..][i - 1..i - 1 + |needle|] == hay[i..i + |needle|];
        assert OccursAt(needle, hay[1..], i - 1);
      }
    }
  }

  // --------------------------------------------------------------- digits

  predicate IsDigit(c: char) {
    '0' <= c <= '9'
  }

  predicate AllDigits(s: string) {
    forall i :: 0 <= i < |s| ==> IsDigit(s[i])
  }

  function DigitChar(d: nat): (c: char)
    requires d < 10
    ensures IsDigit(c)
  {
    ('0' as int + d) as char
  }

  /** `f"{n:d}"` for a non-negative `n`: no leading zeros, "0" for zero. */
  function NatToString(n: nat): (r: string)
    ensures |r| >= 1 && AllDigits(r)
    ensures |r| == 1 || r[0] != '0'
    decreases n
  {
    if n < 10 then [DigitChar(n)] else NatToString(n / 10) + [DigitChar(n % 10)]
  }

  /** `f"{n:d}"` for any integer: a minus sign before the magnitude. */
  function IntToString(n: int): (r: string)
    ensures |r| >= 1
    ensures r[0] == '-' <==> n < 0
    ensures forall i :: 0 < i < |r| ==> IsDigit(r[i])
  {
    if n < 0 then "-" + NatToString(-n) else NatToString(n)
  }

  /** `f"{n:02d}"` for `0 <= n < 100`: always exactly two digits. */
  function Pad2(n: nat): (r: string)
    requires n < 100
    ensures |r| == 2 && AllDigits(r)
  {
    [DigitChar(n / 10), DigitChar(n % 10)]
  }

  /** The value of a string of decimal digits (leading zeros allowed). */
  function DigitsValue(s: string): nat
    requires AllDigits(s)
  {
    if s == [] then 0 else DigitsValue(s[..|s| - 1]) * 10 + (s[|s| - 1] as int - '0' as int)
  }

  /** Reads a non-empty run of decimal digits. */
  function ParseNat(s: string): Option<nat> {
    if s != [] && AllDigits(s) then Some(DigitsValue(s)) else None
  }

  /** Reads an optionally negative decimal integer. */
  function ParseInt(s: string): Option<int> {
    if |s| > 0 && s[0] == '-' then
      match ParseNat(s[1..])
      case Some(n) => Some(0 - n)
      case None => None
    else
      match ParseNat(s)
      case Some(n) => Some(n)
      case None => None
  }

  lemma {:induction false} ParseNatToString(n: nat)
    ensures ParseNat(NatToString(n)) == Some(n)
    decreases n
  {
    if n >= 10 {
      ParseNatToString(n / 10);
      var r := NatToString(n);
      assert r[..|r| - 1] == NatToString(n / 10);
      assert r[|r| - 1] == DigitChar(n % 10);
      assert DigitsValue(r) == (n / 10) * 10 + n % 10;
    }
  }

  lemma ParseIntToString(n: int)
    ensures ParseInt(IntToString(n)) == Some(n)
  {
    if n < 0 {
      ParseNatToString(-n);
      assert IntToString(n)[1..] == NatToString(-n);
    } else {
      ParseNatToString(n);
    }
  }

  lemma ParsePad2(n: nat)
    requires n < 100
    ensures ParseNat(Pad2(n)) == Some(n)
  {
    var r := Pad2(n);
    assert r[..1] == [DigitChar(n / 10)];
    assert r[..1][..0] == [];
    assert DigitsValue(r[..1]) == n / 10;
    assert DigitsValue(r) == (n / 10) * 10 + n % 10;
  }

  // -------------------------------------------------------------- splitting

  /** Python's `s.split(sep)` for a one-character separator: never empty. */
  function Split(s: string, sep: char): (r: seq<string>)
    ensures |r| >= 1
    decreases |s|
  {
    if s == [] then [""]
    else if s[0] == sep then [""] + Split(s[1..], sep)
    else
      var rest := Split(s[1..], sep);
      [[s[0]] + rest[0]] + rest[1..]
  }

  /** A string without the separator is a single field. */
  lemma {:induction false} SplitNoSep(a: string, sep: char)
    requires sep !in a
    ensures Split(a, sep) == [a]
    decreases |a|
  {
    if a != [] {
      SplitNoSep(a[1..], sep);
      assert [a[0]] + a[1..] == a;
    }
  }

  /** Splitting `a + sep + b` where `a` holds no separator peels off `a`. */
  lemma {:induction false} SplitAfterField(a: string, sep: char, b: string)
    requires sep !in a
    ensures Split(a + [sep] + b, sep) == [a] + Split(b, sep)
    decreases |a|
  {
    var s := a + [sep] + b;
    if a == [] {
      assert s[1..] == b;
    } else {
      assert s[1..] == a[1..] + [sep] + b;
      SplitAfterField(a[1..], sep, b);
      assert [a[0]] + a[1..] == a;
    }
  }

  /** Digits never contain a separator such as ':'. */
  lemma DigitsHaveNo(s: string, c: char)
    requires AllDigits(s) && !IsDigit(c)
    ensures c !in s
  {
  }
}

=== FILE: wrappers.dfy ===
/** Optional values, standing in for Python's `None`, and call outcomes. */
module Wrappers {

  datatype Option<+T> = None | Some(value: T) {

    /** Returns the value held by Some, or `default` for None. */
    function GetOr(default: T): T {
      match this
      case Some(v) => v
      case None => default
    }
  }

  /**
    The outcome of a call that may raise: it returns a value, or an exception
    leaves it and reaches its caller.
   */
  datatype Outcome<+T> = Returned(value: T) | Raised
}

=== FILE: youtube.dfy ===
/**
  The online search service: duration formatting, thumbnail choice and the
  shaping of the records the video extractor returns into search results and
  video details. The extractor library itself is a `Backend` value whose
  functions stand for its answers to a search request and to a watch URL.
 */
module Youtube {
  import opened Wrappers
  import opened Text

  // ------------------------------------------------------------- durations

  /**
    The seconds `timedelta(seconds=n)` accepts: its range is -999999999 days
    up to 999999999 days, 23:59:59. Outside it the constructor raises
    OverflowError.
   */
  const SecondsPerDay: int := 86_400
  const MinTimedeltaSeconds: int := -86_399_999_913_600
  const MaxTimedeltaSeconds: int := 86_399_999_999_999

  /** `_fmt_duration` returns for this argument instead of raising. */
  predicate TimedeltaAccepts(seconds: Option<int>)
    ensures TimedeltaAccepts(seconds) <==>
      seconds.None? || -999_999_999 * SecondsPerDay <= seconds.value < 1_000_000_000 * SecondsPerDay
  {
    seconds.None? || MinTimedeltaSeconds <= seconds.value <= MaxTimedeltaSeconds
  }

  /**
    `_fmt_duration`: a missing duration renders as the empty string; any
    integer, zero included, renders as "m:ss" when the hour part is zero and
    as "h:mm:ss" otherwise. Minutes and hours come from floor division, so a
    negative count has a negative hour part. Arguments outside
    `TimedeltaAccepts` raise in the source; the callers below raise for them
    before rendering, so the text given for them here is never used.
   */
  function FmtDuration(seconds: Option<int>): (r: string)
    ensures seconds.None? <==> r == ""
    ensures seconds == Some(0) ==> r == "0:00"
  {
    match seconds
    case None => ""
    case Some(n) =>
      var minutes, s := n / 60, n % 60;
      var h, m := minutes / 60, minutes % 60;
      if h != 0 then IntToString(h) + ":" + Pad2(m) + ":" + Pad2(s)
      else NatToString(m) + ":" + Pad2(s)
  }

  /** A two-digit field below 60, as printed for minutes and seconds. */
  function SexagesimalField(t: string): (r: Option<nat>)
    ensures r.Some? ==> r.value < 60
  {
    if |t| == 2 then
      match ParseNat(t)
      case Some(v) => if v < 60 then Some(v) else None
      case None => None
    else None
  }

  /**
    Reads a rendered duration back: "m:ss" or "h:mm:ss" with the hour field
    possibly negative. This is the inverse the round-trip lemma is stated with.
   */
  function ParseDuration(text: string): Option<int> {
    var f := Split(text, ':');
    if |f| == 2 then
      match (ParseNat(f[0]), SexagesimalField(f[1]))
      case (Some(m), Some(s)) => Some(m * 60 + s)
      case _ => None
    else if |f| == 3 then
      match (ParseInt(f[0]), SexagesimalField(f[1]), SexagesimalField(f[2]))
      case (Some(h), Some(m), Some(s)) => Some(h * 3600 + m * 60 + s)
      case _ => None
    else None
  }

  /** Two successive divisions by 60 are one division by 3600. */
  lemma HoursOfSeconds(n: int)
    ensures n / 60 / 60 == n / 3600
    ensures n / 60 % 60 * 60 + n % 60 == n % 3600
  {
    var q, r := n / 60, n % 60;
    var h, m := q / 60, q % 60;
    assert n == 3600 * h + (60 * m + r);
    assert n == 3600 * (n / 3600) + n % 3600;
  }

  /**
    The rendered fields: two fields exactly for 0 <= n < 3600 (unpadded
    minutes, two-digit seconds), three fields otherwise (the hour part
    n div 3600, then two-digit minutes and seconds).
   */
  lemma FmtDurationShape(n: int)
    ensures var f := Split(FmtDuration(Some(n)), ':');
      && (|f| == 2 || |f| == 3)
      && (|f| == 2 <==> 0 <= n < 3600)
      && (|f| == 2 ==> f[0] == NatToString(n / 60) && f[1] == Pad2(n % 60))
      && (|f| == 3 ==> f[0] == IntToString(n / 3600) && f[1] == Pad2(n / 60 % 60) && f[2] == Pad2(n % 60))
  {
    HoursOfSeconds(n);
    if n / 3600 != 0 {
      FieldsWithHours(n);
    } else {
      FieldsWithoutHours(n);
    }
  }

  lemma FieldsWithHours(n: int)
    requires n / 3600 != 0
    ensures Split(FmtDuration(Some(n)), ':') == [IntToString(n / 3600), Pad2(n / 60 % 60), Pad2(n % 60)]
  {
    HoursOfSeconds(n);
    var h, m, s := n / 3600, n / 60 % 60, n % 60;
    DigitsHaveNo(Pad2(m), ':');
    DigitsHaveNo(Pad2(s), ':');
    SplitNoSep(Pad2(s), ':');
    var hs := IntToString(h);
    assert ':' !in hs by {
      DigitsHaveNo(NatToString(if h < 0 then -h else h), ':');
    }
    assert FmtDuration(Some(n)) == hs + [':'] + (Pad2(m) + [':'] + Pad2(s));
    SplitAfterField(hs, ':', Pad2(m) + [':'] + Pad2(s));
    SplitAfterField(Pad2(m), ':', Pad2(s));
  }

  lemma FieldsWithoutHours(n: int)
    requires n / 3600 == 0
    ensures Split(FmtDuration(Some(n)), ':') == [NatToString(n / 60), Pad2(n % 60)]
  {
    HoursOfSeconds(n);
    var m, s := n / 60 % 60, n % 60;
    DigitsHaveNo(Pad2(s), ':');
    SplitNoSep(Pad2(s), ':');
    DigitsHaveNo(NatToString(m), ':');
    assert FmtDuration(Some(n)) == NatToString(m) + [':'] + Pad2(s);
    SplitAfterField(NatToString(m), ':', Pad2(s));
  }

  /** Every integer duration reads back to itself. */
  lemma FmtDurationRoundTrip(n: int)
    ensures ParseDuration(FmtDuration(Some(n))) == Some(n)
  {
    FmtDurationShape(n);
    HoursOfSeconds(n);
    var f := Split(FmtDuration(Some(n)), ':');
    ParsePad2(n % 60);
    if |f| == 2 {
      ParseNatToString(n / 60);
    } else {
      ParseIntToString(n / 3600);
      ParsePad2(n / 60 % 60);
    }
  }

  /** Over an hour: hours, then padded minutes and seconds. */
  lemma FmtDurationOverAnHour()
    ensures FmtDuration(Some(3725)) == "1:02:05"
  {
    assert 3725 / 60 == 62 && 3725 % 60 == 5;
    assert 62 / 60 == 1 && 62 % 60 == 2;
    assert IntToString(1) == "1";
    assert Pad2(2) == "02" && Pad2(5) == "05";
  }

  /** Under an hour: unpadded minutes, padded seconds. */
  lemma FmtDurationUnderAnHour()
    ensures FmtDuration(Some(601)) == "10:01"
  {
    assert 601 / 60 == 10 && 601 % 60 == 1;
    assert 10 / 60 == 0 && 10 % 60 == 10;
    assert NatToString(10) == "10";
    assert Pad2(1) == "01";
  }

  /** A negative count: floor division gives hour -1 and 59:55 after it. */
  lemma FmtDurationNegative()
    ensures FmtDuration(Some(-5)) == "-1:59:55"
  {
    assert -5 / 60 == -1 && -5 % 60 == 55;
    assert -1 / 60 == -1 && -1 % 60 == 59;
    assert IntToString(-1) == "-1";
    assert Pad2(59) == "59" && Pad2(55) == "55";
  }

  /** A few renderings, including a negative count and its floor division. */
  lemma FmtDurationExamples()
    ensures FmtDuration(Some(3725)) == "1:02:05"
    ensures FmtDuration(Some(601)) == "10:01"
    ensures FmtDuration(Some(-5)) == "-1:59:55"
  {
    FmtDurationOverAnHour();
    FmtDurationUnderAnHour();
    FmtDurationNegative();
  }

  // ----------------------------------------------------------- thumbnails

  /** One element of an extractor entry's `thumbnails` list. */
  datatype Thumbnail = Thumbnail(url: Option<string>, width: Option<int>, height: Option<int>)

  /**
    The `thumbnails` field after `entry.get("thumbnails") or []`: missing or
    falsy, a truthy value that is not a list, or a list.
   */
  datatype ThumbnailsField = Absent | NotAList | Listed(items: seq<Thumbnail>)

  /** The sort key `(width or 0, height or 0)`: a missing dimension counts as 0. */
  function Key(t: Thumbnail): (k: (int, int))
    ensures t.width.Some? ==> k.0 == t.width.value
    ensures t.height.Some? ==> k.1 == t.height.value
    ensures t.width.None? ==> k.0 == 0
    ensures t.height.None? ==> k.1 == 0
  {
    (t.width.GetOr(0), t.height.GetOr(0))
  }

  /** Lexicographic order on sort keys, as Python compares tuples. */
  predicate KeyLe(a: (int, int), b: (int, int)) {
    a.0 < b.0 || (a.0 == b.0 && a.1 <= b.1)
  }

  /**
    Tuple comparison is a total preorder that only identifies equal keys, so
    sorting by it is well defined.
   */
  lemma KeyLeTotalOrder(a: (int, int), b: (int, int), c: (int, int))
    ensures KeyLe(a, a)
    ensures KeyLe(a, b) || KeyLe(b, a)
    ensures KeyLe(a, b) && KeyLe(b, a) ==> a == b
    ensures KeyLe(a, b) && KeyLe(b, c) ==> KeyLe(a, c)
  {
  }

  /**
    What the last element of a stable ascending sort by `Key` is: an element
    whose key is maximal and after which every key is strictly smaller.
   */
  ghost predicate IsLastLargest(ts: seq<Thumbnail>, i: int) {
    && 0 <= i < |ts|
    && (forall j :: 0 <= j < |ts| ==> KeyLe(Key(ts[j]), Key(ts[i])))
    && (forall j :: i < j < |ts| ==> !KeyLe(Key(ts[i]), Key(ts[j])))
  }

  /** Index of the element `sorted(ts, key=Key)[-1]` is. */
  function LastLargestIndex(ts: seq<Thumbnail>): (i: nat)
    requires |ts| > 0
    ensures IsLastLargest(ts, i)
    decreases |ts|
  {
    if |ts| == 1 then 0
    else
      var k := LastLargestIndex(ts[..|ts| - 1]);
      if KeyLe(Key(ts[k]), Key(ts[|ts| - 1])) then |ts| - 1 else k
  }

  /** At most one index is the last largest, so the choice is determined. */
  lemma LastLargestUnique(ts: seq<Thumbnail>, i: int, j: int)
    requires IsLastLargest(ts, i) && 0 <= j < |ts| && j != i
    ensures !IsLastLargest(ts, j)
  {
    if i < j {
      assert !KeyLe(Key(ts[i]), Key(ts[j]));
    } else {
      assert KeyLe(Key(ts[j]), Key(ts[i]));
    }
  }

  // --------------------------------------------------------- entry records

  /** The fields of one extractor entry that the service reads. */
  datatype Entry = Entry(
    id: Option<string>,
    title: Option<string>,
    uploader: Option<string>,
    channel: Option<string>,
    duration: Option<int>,
    description: Option<string>,
    thumbnail: Option<string>,
    thumbnails: ThumbnailsField,
    webpageUrl: Option<string>)

  /** Python truthiness of an optional string. */
  predicate Truthy(o: Option<string>) {
    o.Some? && o.value != ""
  }

  /** `o or fallback` for an optional string. */
  function OrElse(o: Option<string>, fallback: string): string {
    if Truthy(o) then o.value else fallback
  }

  /**
    `_choose_thumbnail`: a truthy `thumbnail` wins outright; otherwise the
    URL of the last largest element of a non-empty `thumbnails` list; None
    when there is no such list.
   */
  function ChooseThumbnail(e: Entry): (r: Option<string>)
    ensures Truthy(e.thumbnail) ==> r == e.thumbnail
    ensures !Truthy(e.thumbnail) && !(e.thumbnails.Listed? && |e.thumbnails.items| > 0) ==> r == None
    ensures !Truthy(e.thumbnail) && e.thumbnails.Listed? && |e.thumbnails.items| > 0 ==>
      exists i :: IsLastLargest(e.thumbnails.items, i) && r == e.thumbnails.items[i].url
  {
    if Truthy(e.thumbnail) then e.thumbnail
    else match e.thumbnails
      case Listed(ts) =>
        if |ts| > 0 then ts[LastLargestIndex(ts)].url else None
      case _ => None
  }

  /**
    `e.get("uploader") or e.get("channel") or ""`: the uploader when truthy,
    else the channel when truthy, else empty.
   */
  function ChannelOf(e: Entry): (r: string)
    ensures r == "" <==> !Truthy(e.uploader) && !Truthy(e.channel)
    ensures Truthy(e.uploader) ==> r == e.uploader.value
    ensures !Truthy(e.uploader) && Truthy(e.channel) ==> r == e.channel.value
  {
    OrElse(e.uploader, OrElse(e.channel, ""))
  }

  /** One row of a search answer. */
  datatype SearchResult = SearchResult(
    id: Option<string>,
    title: Option<string>,
    channel: string,
    duration: string,
    thumbnail: Option<string>)

  /** The page data of one video. */
  datatype VideoDetail = VideoDetail(
    id: Option<string>,
    title: Option<string>,
    channel: string,
    duration: string,
    description: string,
    thumbnail: Option<string>,
    webpageUrl: string)

  /** One search row: the entry's id and title as given, the other fields derived. */
  function ToSearchResult(e: Entry): (r: SearchResult)
    ensures r.id == e.id && r.title == e.title
    ensures r.channel == ChannelOf(e)
    ensures r.duration == FmtDuration(e.duration)
    ensures r.thumbnail == ChooseThumbnail(e)
  {
    SearchResult(e.id, e.title, ChannelOf(e), FmtDuration(e.duration), ChooseThumbnail(e))
  }

  /**
    The page data of the entry fetched from `url`: the description falls back
    to "" and the page URL to `url` itself.
   */
  function ToVideoDetail(e: Entry, url: string): (r: VideoDetail)
    ensures r.id == e.id && r.title == e.title
    ensures r.channel == ChannelOf(e)
    ensures r.duration == FmtDuration(e.duration)
    ensures r.thumbnail == ChooseThumbnail(e)
    ensures r.description == (if Truthy(e.description) then e.description.value else "")
    ensures r.webpageUrl == (if Truthy(e.webpageUrl) then e.webpageUrl.value else url)
    ensures url != "" ==> r.webpageUrl != ""
    ensures r.description == "" <==> !Truthy(e.description)
  {
    VideoDetail(e.id, e.title, ChannelOf(e), FmtDuration(e.duration),
                OrElse(e.description, ""), ChooseThumbnail(e), OrElse(e.webpageUrl, url))
  }

  /** A search row and the page data shape the fields they share in the same way. */
  lemma RowAgreesWithDetail(e: Entry, url: string)
    ensures var row, detail := ToSearchResult(e), ToVideoDetail(e, url);
      && row.id == detail.id && row.title == detail.title
      && row.channel == detail.channel && row.duration == detail.duration
      && row.thumbnail == detail.thumbnail
  {
  }

  // -------------------------------------------------------------- backend

  /** What the extractor returns for a search request: a dict or something else. */
  datatype Info = InfoDict(entries: seq<Entry>) | NotADict

  /**
    The extractor library: missing, or present with its answers to a search
    request and to a watch URL, each None when the extraction raises.
   */
  datatype Backend =
    | Unavailable
    | Available(searchInfo: string -> Option<Info>, videoInfo: string -> Option<Entry>)

  /** The `limit` `youtube_search` uses when its caller gives none. */
  const DefaultLimit: int := 12

  /** The search request handed to the extractor, `ytsearch<limit>:<query>`. */
  function SearchRequest(query: string, limit: int): (r: string)
    ensures |r| > |query| + 8
    ensures r[..8] == "ytsearch"
    ensures r[|r| - |query|..] == query
    ensures r[|r| - |query| - 1] == ':'
    ensures r[8..|r| - |query| - 1] == IntToString(limit)
  {
    "ytsearch" + IntToString(limit) + ":" + query
  }

  /** The limit can be read back from the request between the prefix and the colon. */
  lemma SearchRequestLimit(query: string, limit: int)
    ensures var r := SearchRequest(query, limit);
      ParseInt(r[8..|r| - |query| - 1]) == Some(limit)
  {
    ParseIntToString(limit);
  }

  /** With the default limit the request asks for twelve results. */
  lemma DefaultSearchRequest(query: string)
    ensures SearchRequest(query, DefaultLimit) == "ytsearch12:" + query
  {
    assert IntToString(12) == "12";
  }

  /** The watch page of a video id. */
  function WatchUrl(videoId: string): (r: string)
    ensures |r| == 32 + |videoId|
    ensures r[..32] == "https://www.youtube.com/watch?v="
    ensures r[32..] == videoId
  {
    "https://www.youtube.com/watch?v=" + videoId
  }

  /** `info.get("entries", [])` when the answer is a dict, else []. */
  function EntriesOf(info: Info): (r: seq<Entry>)
    ensures info.NotADict? ==> r == []
    ensures info.InfoDict? ==> r == info.entries
  {
    if info.InfoDict? then info.entries else []
  }

  /** Every entry's duration is one `_fmt_duration` renders without raising. */
  predicate DurationsRender(entries: seq<Entry>) {
    forall i :: 0 <= i < |entries| ==> TimedeltaAccepts(entries[i].duration)
  }

  /**
    `youtube_search`: an empty query or a missing library answers [] without
    asking the extractor. Otherwise the call raises when the extraction raises
    (nothing catches it) or when some entry's duration is out of `timedelta`'s
    range; else it answers one shaped result per extracted entry, in the
    extractor's order.
   */
  function YoutubeSearch(query: string, limit: int, backend: Backend): (r: Outcome<seq<SearchResult>>)
    ensures query == "" || backend.Unavailable? ==> r == Returned([])
    ensures query != "" && backend.Available? ==>
      var info := backend.searchInfo(SearchRequest(query, limit));
      (r.Raised? <==> info.None? || !DurationsRender(EntriesOf(info.value)))
    ensures query != "" && backend.Available? && r.Returned? ==>
      var entries := EntriesOf(backend.searchInfo(SearchRequest(query, limit)).value);
      |r.value| == |entries| && forall i :: 0 <= i < |r.value| ==> r.value[i] == ToSearchResult(entries[i])
  {
    if query == "" || backend.Unavailable? then Returned([])
    else
      match backend.searchInfo(SearchRequest(query, limit))
      case None => Raised
      case Some(info) =>
        var entries := EntriesOf(info);
        if !DurationsRender(entries) then Raised
        else Returned(seq(|entries|, i requires 0 <= i < |entries| => ToSearchResult(entries[i])))
  }

  /**
    `get_video`: None for an empty id, a missing library or a failed
    extraction (that exception is caught); a duration out of `timedelta`'s
    range raises, since shaping is outside the `try`; otherwise the shaped
    detail, whose page URL falls back to the watch URL and so is never empty.
   */
  function GetVideo(videoId: string, backend: Backend): (r: Outcome<Option<VideoDetail>>)
    ensures videoId == "" || backend.Unavailable? ==> r == Returned(None)
    ensures videoId != "" && backend.Available? ==>
      var e := backend.videoInfo(WatchUrl(videoId));
      && (e.None? ==> r == Returned(None))
      && (e.Some? ==> (r.Raised? <==> !TimedeltaAccepts(e.value.duration)))
      && (e.Some? && r.Returned? ==> r.value == Some(ToVideoDetail(e.value, WatchUrl(videoId))))
    ensures r.Returned? && r.value.Some? ==> r.value.value.webpageUrl != ""
  {
    if videoId == "" || backend.Unavailable? then Returned(None)
    else
      match backend.videoInfo(WatchUrl(videoId))
      case None => Returned(None)
      case Some(e) =>
        if !TimedeltaAccepts(e.duration) then Raised
        else Returned(Some(ToVideoDetail(e, WatchUrl(videoId))))
  }

  /** An empty query yields the same (empty) answer whatever the backend. */
  lemma EmptyQueryIgnoresBackend(limit: int, b1: Backend, b2: Backend)
    ensures YoutubeSearch("", limit, b1) == YoutubeSearch("", limit, b2) == Returned([])
  {
  }
}
